=== FILE: README.md ===
# MinLandIntegerPotentialField in Dafny

A model of the integer distance field of the 2011 ants bot
(`2011-ants/src/Fields.py`). The field is a rows x cols table. Each cell holds
either `None` ("no distance known") or a natural number: the number of
four-neighbour hops from the nearest source. Intensity spreads only onto
LAND cells, and where several sources reach a cell the lower distance wins.

The project has one module per concern:

- `grid.dfy` (module `Grid`): cells, the read-only terrain, and the distance
  table. The terrain is the driver's size and `neighbours`, plus the
  terrain's LAND test; the neighbour relation is taken to be symmetric. The table is a `map<Cell, Option<nat>>` over exactly
  the in-bounds cells. The module also has the raw `get_at`/`set_at` with
  Python list indexing.
- `paths.dfy` (module `Paths`): the meaning of the field. It defines LAND
  walks, the hop distance `Distance`, and the reference table
  `ShortestHops`. It proves the reference table is the only table that is a
  distance table (sources at 0, every known value is the length of a walk,
  every known cell relaxed).
- `spread.dfy` (module `Propagation`): `spread`, a label-correcting relaxation
  driven by a priority queue of `(distance, cell)` entries. Its loop
  invariant is proved per iteration. `SpreadReachesShortestHops` turns its
  guarantees into equality with the reference table when spread starts from
  a table whose sources hold 0, whose known values are all walk lengths, and
  whose known non-source cells are already relaxed.
- `retraction.dfy` (module `Retraction`): `remove_fields_of_source`, the
  deque-driven sweep that clears the cells a withdrawn source fed. It is
  modelled as a pure step function `CheckNext` iterated by `Finish`, with an
  invariant proved for one turn.
- `field.dfy` (module `MinLandField`): the field as a whole. The state is
  terrain, table and source list. It models `setup`, `recalculate`,
  `add_source(s)`, `update_fields` and `remove_source(s)`, with Python's
  exceptions as explicit outcomes. The last three come twice: as the code
  stands (the `AsWritten` members) and as evidently intended (see
  "## Findings").
- `scenarios.dfy` (module `Scenarios`): concrete maps that pin the general
  contracts down:
  - an open 5 x 5 map;
  - a 3 x 3 map with a water column;
  - a 1 x 5 line with sources at both ends, where withdrawing one end shows
    that removal is not repaired.

Readings of the source that the model fixes:

- `distance` is not defined in `remove_fields_of_source`. At line 58 it is
  read as the source's value before it is cleared. At lines 65 and 68 it is
  read as the value of the popped cell `loc` (the comment at line 62 says
  so). A popped cell that an earlier turn already cleared is passed over.
- `deque` has no `empty()`. The loop at line 59 is read as "while the deque
  is non-empty". `pop` takes the right end, and `extendleft` puts its
  argument at the left end in reverse order (`ExtendLeft`).
- `spread` ignores its argument and always seeds from the field's own
  source list (line 75). This is kept as written. So the neighbour list
  that `update_fields` builds (lines 90-93) would never be used. Removal
  therefore does not refill cleared cells from the surviving neighbours:
  `Scenarios.RemovalLeavesHole` shows a cell left `None` although it is
  three hops from a remaining source. The model never claims that removal
  yields the table `recalculate` would.
- `reduce` over an empty list raises a TypeError (lines 93 and 120). This is
  the `ReduceOfEmpty` outcome. State changes made before the raise are
  kept: `remove_source` has already edited the source list when
  `update_fields` raises.
- Line 93 binds the collapsed neighbour list to `valid_neightbours`, and
  line 94 passes `valid_neighbours`, a name bound nowhere in the file. As
  written, every call of `update_fields` with a non-empty list therefore
  clears its cells (lines 88-89) and then raises NameError without
  spreading; this is the `NameError` outcome of
  `MinLandField.UpdateFieldsAsWritten`, `RemoveSourceAsWritten` and
  `RemoveSourcesAsWritten`. The other members (`UpdateFields`,
  `RemoveSource`, `RemoveSources` and the round trips built on them) model
  the evidently intended line 94, which passes the list of line 93. Since
  `spread` ignores that list, the intended update is a spread from the
  field's sources. "## Findings" records the discrepancy.

## Model

| member | source | states |
|---|---|---|
| Grid.GetAt | 2011-ants/src/Fields.py:17-19 | reading a cell gives its table entry; a negative index counts from the end; an index outside both ranges is an IndexError |
| Grid.SetAt | 2011-ants/src/Fields.py:21-23 | writing keeps the table full-sized and changes the designated entry; out-of-range indices are an IndexError |
| Grid.GetAfterSet | 2011-ants/src/Fields.py:17-23 | after a write, reading the written cell (under any spelling of its index) returns the written value and every other cell its old value |
| Grid.Resolve | 2011-ants/src/Fields.py:19 | `field[row][col]` designates an in-bounds cell exactly when both indices lie in `-n .. n-1`, and an in-bounds cell designates itself |
| Grid.AllUnknown | 2011-ants/src/Fields.py:44 | the freshly allocated table covers the whole map and knows no distance |
| Paths.Distance | 2011-ants/src/Fields.py:26-31 | a cell's distance is the length of a shortest LAND walk from a source, and `None` exactly when no walk reaches it |
| Paths.ZeroExactlyAtSources | 2011-ants/src/Fields.py:26-28 | a cell is at distance 0 if and only if it is a source |
| Paths.SourcesAtZero | 2011-ants/src/Fields.py:131-132 | every listed source holds 0 in the reference table |
| Paths.ShortestHopsRelaxed | 2011-ants/src/Fields.py:28-29 | in the reference table, no LAND neighbour of a known cell is more than one hop further away |
| Paths.ShortestHopsUnion | 2011-ants/src/Fields.py:29-30 | where two source sets both reach a cell, the table of their union holds the lower distance |
| Paths.ShortestHopsOfNothing | 2011-ants/src/Fields.py:44-47 | with no sources the reference table is the all-`None` table that `setup` allocates |
| Paths.DistanceTableUnique | 2011-ants/src/Fields.py:26-31 | a table is a distance table of the sources (sources at 0, known values are walk lengths, known cells relaxed) if and only if it equals the reference table |
| Propagation.MinIndex | 2011-ants/src/Fields.py:81 | `q.get()` removes an entry that is least in Python's tuple order `(distance, row, col)` |
| Propagation.Seeds | 2011-ants/src/Fields.py:74-77 | the initial queue holds `(value, s)` for exactly the listed sources that hold a value |
| Propagation.Improvable | 2011-ants/src/Fields.py:82-83 | the rewritten neighbours are exactly the LAND neighbours holding `None` or more than `d + 1` |
| Propagation.WriteAll | 2011-ants/src/Fields.py:84-85 | each improvable neighbour gets `d + 1` and is queued with `d + 1`; nothing else changes |
| Propagation.Relax | 2011-ants/src/Fields.py:80-85 | one iteration takes a least entry `(d, loc)` out of the queue, gives `d + 1` to exactly the LAND neighbours of `loc` holding `None` or more than `d + 1`, leaves every other cell alone, and queues each rewritten cell with `d + 1` |
| Propagation.Pop | 2011-ants/src/Fields.py:80-85 | one iteration keeps the loop invariant, and either writes a cell never written before or shortens the queue, so the loop ends |
| Propagation.Spread | 2011-ants/src/Fields.py:72-85 | values never increase; only LAND cells are written; every written value is the length of a walk from a seed and is one more than the final value of a neighbour spread took part in; every cell spread took part in ends relaxed |
| Propagation.SpreadFromNoSources | 2011-ants/src/Fields.py:74-80 | with no sources the queue starts empty, so spread leaves the table as it is |
| Propagation.SpreadUnique | 2011-ants/src/Fields.py:72-85 | the guarantees of `spread` determine its result: two tables that both satisfy them for the same starting table and sources are equal |
| Propagation.SpreadReachesShortestHops | 2011-ants/src/Fields.py:26-31 | spread from a table where the sources hold 0, every known value is a walk length, and every non-source known cell is relaxed ends in exactly the reference table |
| Retraction.Larger | 2011-ants/src/Fields.py:68 | the neighbours queued after a removal are exactly those holding a value above the removed cell's |
| Retraction.HasSmaller | 2011-ants/src/Fields.py:65 | the `reduce` test is true exactly when some neighbour holds a value below the popped cell's |
| Retraction.ExtendLeftIsReversePrefix | 2011-ants/src/Fields.py:68 | `extendleft` puts its argument, reversed, in front of the deque |
| Retraction.CheckKeepsInv | 2011-ants/src/Fields.py:59-68 | one turn of the sweep keeps its invariant and either removes a new cell or shortens the deque |
| Retraction.Finish | 2011-ants/src/Fields.py:59-68 | running the loop until the deque is empty keeps the invariant and only appends to the removed list |
| Retraction.CheckNext | 2011-ants/src/Fields.py:60-68 | the popped right end is cleared and appended to the removed list exactly when it held a distance and no neighbour held a smaller one; after a removal the deque holds exactly the rest of the old deque plus the neighbours of the popped cell whose distance is above its old one (the `extendleft` of line 68); otherwise table and removed list are unchanged and the deque just loses its right end |
| Retraction.Start | 2011-ants/src/Fields.py:56-58 | the source is cleared and is the only removed cell, the deque holds exactly the neighbours of the source whose distance is above the source's, and the sweep's invariant holds |
| Retraction.RemoveFieldsOfSource | 2011-ants/src/Fields.py:49-70 | a source holding `None` returns `[]` and leaves the table alone; otherwise the returned list starts with the source, held values, has its cells set to `None`, and every other cell keeps its value |
| Retraction.RemovalSettles | 2011-ants/src/Fields.py:59-68 | no cell is returned twice; each returned cell after the source neighbours an earlier returned cell of smaller value, and every neighbour with a smaller value was returned before it; in the final table, every neighbour of a returned cell still holding a larger value has a neighbour holding a smaller one |
| Retraction.SweepSetUnique | 2011-ants/src/Fields.py:59-68 | two finished sweeps from the same source (each starting at the source, cascading outwards, clearing exactly its removed cells and leaving the table closed) remove the same cells and leave the same table, whatever order their deques handed out the cells |
| Retraction.AnyOrderSameTable | 2011-ants/src/Fields.py:49-70 | any such finished sweep leaves the very table `remove_fields_of_source` leaves: only the order of the returned list depends on the deque |
| MinLandField.WriteEach | 2011-ants/src/Fields.py:104-105 | the `set_at` loop gives every listed cell the value and leaves the rest |
| MinLandField.Setup | 2011-ants/src/Fields.py:40-47 | setup keeps the terrain, allocates a full table in which every cell holds `None`, and empties the source list |
| MinLandField.SetupConsistent | 2011-ants/src/Fields.py:40-47 | a freshly set up field already holds the reference table of its (empty) source list |
| MinLandField.Recalculate | 2011-ants/src/Fields.py:128-133 | the result holds exactly the reference table of the source list, every source holds 0, and recalculating a consistent field changes nothing (so recalculating twice is recalculating once) |
| MinLandField.AddedSourcesConsistent | 2011-ants/src/Fields.py:102-107 | from the reference table of the old list, putting the new sources at 0 and spreading gives the reference table of the extended list |
| MinLandField.AddSources | 2011-ants/src/Fields.py:102-107 | the new sources are appended and hold 0, no value increases, the result satisfies what `spread` guarantees from the table with the new sources at 0 (which fixes it, by `SpreadUnique`), and from a consistent field the result is the reference table of the extended list, which is what `recalculate` would give |
| MinLandField.AddSource | 2011-ants/src/Fields.py:96-100 | the same for one source: appended, at 0, values never increase, the result is the spread of the table with the source at 0, consistency kept |
| MinLandField.FirstIndex | 2011-ants/src/Fields.py:113 | the first-match search that `list.remove` performs finds the first occurrence |
| MinLandField.RemoveFirst | 2011-ants/src/Fields.py:112-115 | a missing cell leaves the list unchanged; otherwise exactly its first occurrence is dropped, and the result is a subsequence of the list (the rest keeps its order) |
| MinLandField.DropAfterRemoveFirst | 2011-ants/src/Fields.py:112-115 | removing the first occurrence of `c` and then dropping first occurrences owed by `m` is dropping the first occurrences owed by `m` plus one `c` |
| MinLandField.RemoveEach | 2011-ants/src/Fields.py:121-125 | dropping one occurrence per listed cell removes exactly the listed multiset, tolerating cells not present, and the surviving sources keep their order (the result is a subsequence of the list); which copies go is fixed too: the result is the list with the first `k` occurrences of each value dropped, `k` being how often the value is listed, so the last copies survive |
| MinLandField.RemoveEachTakesFirst | 2011-ants/src/Fields.py:121-125 | removing `a` from `[a, b, a]` leaves `[b, a]`, not `[a, b]` |
| MinLandField.UpdateFields | 2011-ants/src/Fields.py:87-94 | as evidently intended: an empty list raises and changes nothing; otherwise the update ends normally, the listed cells are cleared and the result is a spread of that table from the field's own sources, which are unchanged |
| MinLandField.UpdateFieldsAsWritten | 2011-ants/src/Fields.py:87-94 | as written: the listed cells are cleared and every other cell keeps its value; an empty list raises TypeError in `reduce` and any other list raises NameError at line 94, so the update never ends normally and nothing is spread |
| MinLandField.RemoveSource | 2011-ants/src/Fields.py:109-116 | as evidently intended: the source list loses the first occurrence of the source; a source holding `None` withdraws nothing, so the update raises with the table unchanged; otherwise the call ends normally and the result is a spread of the swept table from the remaining sources |
| MinLandField.RemoveSourceAsWritten | 2011-ants/src/Fields.py:109-116 | as written: the source list loses the first occurrence of the source and the table is the swept one; a source holding `None` raises TypeError, any other raises NameError, so the call never ends normally |
| MinLandField.ClearedAt | 2011-ants/src/Fields.py:49-70 | withdrawing the only source of a consistent table clears every cell it reached, at whatever distance |
| MinLandField.WithdrawOnlySource | 2011-ants/src/Fields.py:49-70 | withdrawing the only source of a consistent table leaves the blank table |
| MinLandField.AddToBlank | 2011-ants/src/Fields.py:96-100 | `add_source` on a freshly set up field gives the reference table of that one source |
| MinLandField.RemoveOnlySource | 2011-ants/src/Fields.py:109-116 | as evidently intended, `remove_source` of the only source of a consistent field ends normally, with no sources and the blank table |
| MinLandField.AddThenRemove | 2011-ants/src/Fields.py:96-116 | as evidently intended, `remove_source` undoes `add_source`: after `setup`, adding a source and removing it again ends normally and gives back exactly the set-up state |
| MinLandField.AddThenRemoveAsWritten | 2011-ants/src/Fields.py:96-116 | as written, the same round trip raises NameError, although the state it leaves is the set-up one |
| MinLandField.SweepEach | 2011-ants/src/Fields.py:120 | when the first listed source held a distance, the chained withdrawn list starts with it |
| MinLandField.SweepEachFrame | 2011-ants/src/Fields.py:120 | the chained sweeps withdraw only cells that held a value, clear exactly those, and withdraw nothing exactly when no listed source held a value |
| MinLandField.WithdrawAll | 2011-ants/src/Fields.py:120 | sweeping the listed sources one after another on the shrinking table gives the chained sweeps' table and withdrawn list |
| MinLandField.RemoveSources | 2011-ants/src/Fields.py:118-126 | as evidently intended: an empty list raises before anything changes; otherwise one occurrence per listed cell leaves the source list; the withdrawn cells are those of the chained sweeps; if none was withdrawn the update raises with the table unchanged, else the call ends normally and the result is a spread of the cleared table from the remaining sources |
| MinLandField.RemoveSourcesAsWritten | 2011-ants/src/Fields.py:118-126 | as written: the same list and withdrawn cells, the withdrawn cells cleared and every other cell kept, and the call never ends normally (TypeError when nothing was withdrawn, NameError otherwise) |
| Scenarios.ExactDistance | 2011-ants/src/Fields.py:26-31 | on a bounded grid, a cell reached in `k` hops that lies at least `k` cells from every source is at distance exactly `k` |
| Scenarios.OpenGridCorners | 2011-ants/src/Fields.py:128-133 | on an open 5 x 5 map with the centre as only source, a consistent field holds 0 at the centre and 4 in both far corners |
| Scenarios.WallBlocks | 2011-ants/src/Fields.py:30-31 | intensity does not cross water: with a water column between them, no cell right of the wall gets a distance from a source on the left |
| Scenarios.LineWithdrawal | 2011-ants/src/Fields.py:49-70 | on the line 0 1 2 1 0, withdrawing the right end returns exactly that end and its neighbour holding 1, in that order; the middle cell keeps its 2 because its left neighbour holds 1 |
| Scenarios.RemovalLeavesHole | 2011-ants/src/Fields.py:109-116 | after `remove_source` of the right end as evidently intended (the spread runs), the fourth cell holds `None` although the remaining source is three hops away |

## Findings

| source | as written | input that shows it | evidently intended | confidence | as-written member | corrected member |
|---|---|---|---|---|---|---|
| 2011-ants/src/Fields.py:93-94 | line 93 binds the collapsed neighbour list to `valid_neightbours`, and line 94 calls `self.spread(valid_neighbours)`, a name bound nowhere; so every `update_fields` with a non-empty list clears its cells and raises NameError without spreading, and `remove_source`/`remove_sources` raise with it | `setup`, then `add_source(c)` and `remove_source(c)` for any cell `c` on the map | line 94 passes the list line 93 built; `spread` ignores it, so the update spreads from the remaining sources and ends normally | not executed | MinLandField.AddThenRemoveAsWritten | MinLandField.AddThenRemove |

`AddThenRemoveAsWritten` runs the code as it stands (`UpdateFieldsAsWritten`
through `RemoveSourceAsWritten`) and ends in `NameError`. `AddThenRemove`
runs the corrected `UpdateFields` through `RemoveSource` and ends normally.
The rest of the model uses the corrected members.

## Left out

- `get_potential` in the three subclasses: floating-point exponentiation of the distance.
- `render_text_map`: debug string formatting.
- The `update` methods of the subclasses: they copy lists from driver state that is not shown, then call `recalculate`.
- The concrete topology of `driver.neighbours` and the terrain classes: they are not part of this model. They are parameters (`Terrain.neighbours`, `Terrain.isLand`), assumed to report in-bounds neighbours only, and to be symmetric (if `n` is a neighbour of `c`, then `c` is a neighbour of `n`), as four-neighbour moves on a map are. `Scenarios.Bounded` is one concrete instance, used only in the scenarios.
- Thread safety and locking of `Queue.PriorityQueue`: the model is sequential. Among equal entries the queue takes a least `(distance, row, col)` tuple, as Python's tuple order does.
- Sources outside the map: every operation except `GetAt`/`SetAt` requires in-bounds cells. The source would raise IndexError, or wrap around for negative indices, at its first `get_at`/`set_at`. Only the raw accessors model that.
- The neighbour list of `update_fields` (lines 90-93) is not built. Reading its cells cannot fail, since the cleared cells and their neighbours are on the map. It only matters through the two raises that the `Outcome` records: `reduce` over an empty list, and the unbound name at line 94. Under the evidently intended reading `spread` would ignore it.
- MinLandField.RemoveSource: does not return the withdrawn list. It is the `removed` of `Retraction.RemoveFieldsOfSource` on the same table, which the contract names directly.
- MinLandField.RemoveSources: does not state that the result equals what `recalculate` would give. The code does not promise it: `spread` seeds only from the sources, so cleared cells next to surviving distances stay `None` (see `Scenarios.RemovalLeavesHole`). The order of the deque does not matter to the table (`Retraction.AnyOrderSameTable`).
- MinLandField.RemoveSources: the argument is assumed not to be the field's own source list. Lines 121-123 iterate over `sources` while `self.sources.remove` shrinks that same list when the caller passes `self.sources`, so Python skips the element after each one it removes (`[a, b, c]` leaves `[b]`). `RemoveEach` models the loop over a separate list, which would leave `[]`. Line 120 builds its list first, so every cell is still swept.

=== FILE: field.dfy ===
/** A MinLandIntegerPotentialField as a whole: its table, its list of
    sources, and the public operations that keep the two in step. */
module MinLandField {
  import opened Grid
  import opened Paths
  import opened Propagation
  import opened Retraction

  /** The field's state: the terrain it was set up with, the distance table
      and the list of sources (duplicates allowed, in insertion order). */
  datatype State = State(terrain: Terrain, field: Field, sources: seq<Cell>)

  /** How an update ended: normally, with the TypeError that `reduce`
      raises on an empty list, or with the NameError that the program as
      written raises when `update_fields` reaches its call of `spread`. */
  datatype Outcome = Done | ReduceOfEmpty | NameError

  /** A state the operations accept: a well-formed terrain, a full table and
      sources on the map. */
  ghost predicate Valid(st: State) {
    && WellFormed(st.terrain) && IsGrid(st.terrain, st.field)
    && forall k :: 0 <= k < |st.sources| ==> InBounds(st.terrain, st.sources[k])
  }

  /** The table holds exactly the shortest LAND distances from the sources. */
  ghost predicate Consistent(st: State) {
    Valid(st) && st.field == ShortestHops(st.terrain, Elements(st.sources))
  }

  /** `for c in cells: set_at(c, v)`. */
  function WriteEach(t: Terrain, f: Field, cells: seq<Cell>, v: Option<nat>): (r: Field)
    requires IsGrid(t, f)
    requires forall k :: 0 <= k < |cells| ==> InBounds(t, cells[k])
    ensures IsGrid(t, r)
    ensures forall c :: c in f ==> r[c] == if c in cells then v else f[c]
    decreases |cells|
  {
    if cells == [] then f
    else
      assert forall c :: c in cells <==> c == cells[0] || c in cells[1..];
      WriteEach(t, SetAt(t, f, cells[0], v).value, cells[1..], v)
  }

  /** `setup`: a blank table and no sources. */
  function Setup(t: Terrain): (st: State)
    ensures st.terrain == t && IsGrid(t, st.field) && st.sources == []
    ensures forall c :: c in st.field ==> st.field[c].None?
  {
    State(t, AllUnknown(t), [])
  }

  /** A freshly set up field already agrees with its (empty) source list. */
  lemma SetupConsistent(t: Terrain)
    requires WellFormed(t)
    ensures Consistent(Setup(t))
  {
    ShortestHopsOfNothing(t);
    assert Elements([]) == {};
  }

  /** A source is reached by the walk that stays put. */
  lemma SourceReached(t: Terrain, sources: set<Cell>, c: Cell)
    requires c in sources
    ensures ReachesIn(t, sources, c, 0)
  {
    assert IsWalk(t, [c]);
  }

  /** More sources reach at least as much. */
  lemma ReachesMore(t: Terrain, s1: set<Cell>, s2: set<Cell>, c: Cell, k: nat)
    requires ReachesIn(t, s1, c, k) && s1 <= s2
    ensures ReachesIn(t, s2, c, k)
  {
    var p :| IsWalk(t, p) && |p| == k + 1 && p[0] in s1 && p[k] == c;
    assert p[0] in s2;
  }

  /** `recalculate`: blank the table, put every source at 0 and spread.
      The result holds exactly the shortest LAND distances from the sources,
      so recalculating a consistent field changes nothing. */
  method Recalculate(st: State) returns (r: State)
    requires Valid(st)
    ensures r.terrain == st.terrain && r.sources == st.sources
    ensures Consistent(r)
    ensures forall k :: 0 <= k < |st.sources| ==> r.field[st.sources[k]] == Some(0)
    ensures Consistent(st) ==> r == st
  {
    var t := st.terrain;
    var f := WriteEach(t, AllUnknown(t), st.sources, Some(0));
    var g := Spread(t, f, st.sources);
    var S := Elements(st.sources);
    forall c | c in f && f[c].Some?
      ensures ReachesIn(t, S, c, f[c].value)
    {
      SourceReached(t, S, c);
    }
    SpreadReachesShortestHops(t, f, st.sources, g);
    SourcesAtZero(t, st.sources);
    r := State(t, g, st.sources);
  }

  /** One cell of a consistent table after the new sources `xs` are put
      at 0: sources hold 0, a known distance is the length of a walk from
      the extended list, and an old distance stays relaxed. */
  lemma AddedSourceCell(t: Terrain, sources: seq<Cell>, xs: seq<Cell>, f: Field, c: Cell)
    requires WellFormed(t) && IsGrid(t, f) && c in f
    requires forall y :: y in f ==> f[y] == if y in xs then Some(0) else ShortestHops(t, Elements(sources))[y]
    ensures c in sources + xs ==> f[c] == Some(0)
    ensures f[c].Some? ==> ReachesIn(t, Elements(sources + xs), c, f[c].value)
    ensures f[c].Some? && c !in sources + xs ==> Relaxed(t, f, c)
  {
    var S := Elements(sources);
    var S' := Elements(sources + xs);
    var m := ShortestHops(t, S);
    if c in xs {
      SourceReached(t, S', c);
    } else {
      if c in sources {
        ZeroExactlyAtSources(t, S, c);
      }
      if f[c].Some? {
        ReachesMore(t, S, S', c, f[c].value);
        if c !in sources {
          ShortestHopsRelaxed(t, S, c);
          RelaxedKept(t, m, f, c);
        }
      }
    }
  }

  /** Starting from a consistent table, putting the new sources `xs` at 0
      gives a table from which spread reaches the extended list's distances. */
  lemma AddedSourcesReady(t: Terrain, sources: seq<Cell>, xs: seq<Cell>, f: Field)
    requires WellFormed(t) && IsGrid(t, f)
    requires forall k :: 0 <= k < |sources| ==> InBounds(t, sources[k])
    requires forall k :: 0 <= k < |xs| ==> InBounds(t, xs[k])
    requires forall y :: y in f ==> f[y] == if y in xs then Some(0) else ShortestHops(t, Elements(sources))[y]
    ensures forall s :: s in sources + xs ==> s in f && f[s] == Some(0)
    ensures forall c :: c in f && f[c].Some? ==> ReachesIn(t, Elements(sources + xs), c, f[c].value)
    ensures forall c :: c in f && f[c].Some? && c !in sources + xs ==> Relaxed(t, f, c)
  {
    forall c | c in f
      ensures c in sources + xs ==> f[c] == Some(0)
      ensures f[c].Some? ==> ReachesIn(t, Elements(sources + xs), c, f[c].value)
      ensures f[c].Some? && c !in sources + xs ==> Relaxed(t, f, c)
    {
      AddedSourceCell(t, sources, xs, f, c);
    }
    forall s | s in sources + xs
      ensures s in f
    {
      var k :| 0 <= k < |sources + xs| && (sources + xs)[k] == s;
      if k >= |sources| {
        assert s == xs[k - |sources|];
      }
    }
  }

  /** Spread after putting new sources at 0 in a consistent table yields
      the consistent table of the extended list. */
  lemma AddedSourcesConsistent(t: Terrain, sources: seq<Cell>, xs: seq<Cell>, f: Field, g: Field)
    requires WellFormed(t) && IsGrid(t, f)
    requires forall k :: 0 <= k < |sources| ==> InBounds(t, sources[k])
    requires forall k :: 0 <= k < |xs| ==> InBounds(t, xs[k])
    requires forall y :: y in f ==> f[y] == if y in xs then Some(0) else ShortestHops(t, Elements(sources))[y]
    requires IsSpreadOf(t, f, sources + xs, g)
    ensures g == ShortestHops(t, Elements(sources + xs))
  {
    AddedSourcesReady(t, sources, xs, f);
    SpreadReachesShortestHops(t, f, sources + xs, g);
  }

  /** Two steps that never raise a distance never raise one together. */
  lemma NoIncreaseTwice(f: Field, h: Field, g: Field)
    requires NoIncrease(f, h) && NoIncrease(h, g)
    ensures NoIncrease(f, g)
  {
    forall c | c in f
      ensures AtMost(g[c], f[c])
    {
      assert AtMost(g[c], h[c]) && AtMost(h[c], f[c]);
    }
  }

  /** What `add_sources` guarantees of any table, given spread's
      guarantees. */
  lemma AddedSourcesResult(st: State, xs: seq<Cell>, f: Field, g: Field)
    requires Valid(st)
    requires forall k :: 0 <= k < |xs| ==> InBounds(st.terrain, xs[k])
    requires IsGrid(st.terrain, f)
    requires forall c :: c in st.field ==> f[c] == if c in xs then Some(0) else st.field[c]
    requires NoIncrease(f, g)
    ensures Valid(State(st.terrain, g, st.sources + xs))
    ensures forall c :: c in xs ==> g[c] == Some(0)
    ensures NoIncrease(st.field, g)
  {
    assert NoIncrease(st.field, f);
    NoIncreaseTwice(st.field, f, g);
    forall k | 0 <= k < |st.sources + xs|
      ensures InBounds(st.terrain, (st.sources + xs)[k])
    {
      if k >= |st.sources| {
        assert (st.sources + xs)[k] == xs[k - |st.sources|];
      }
    }
  }

  /** `add_sources`: put every new source at 0, append them to the list and
      spread. Distances only shrink, the result is what spread guarantees
      from the table with the new sources at 0 (which fixes it, by
      `SpreadUnique`), and from a consistent field it is the field that
      `recalculate` builds for the extended list. */
  method AddSources(st: State, xs: seq<Cell>) returns (r: State)
    requires Valid(st)
    requires forall k :: 0 <= k < |xs| ==> InBounds(st.terrain, xs[k])
    ensures r.terrain == st.terrain && r.sources == st.sources + xs
    ensures Valid(r)
    ensures forall c :: c in xs ==> r.field[c] == Some(0)
    ensures NoIncrease(st.field, r.field)
    ensures IsSpreadOf(st.terrain, WriteEach(st.terrain, st.field, xs, Some(0)), st.sources + xs, r.field)
    ensures Consistent(st) ==> Consistent(r)
  {
    var t := st.terrain;
    var f := WriteEach(t, st.field, xs, Some(0));
    var sources := st.sources + xs;
    var g := Spread(t, f, sources);
    AddedSourcesResult(st, xs, f, g);
    if Consistent(st) {
      AddedSourcesConsistent(t, st.sources, xs, f, g);
    }
    r := State(t, g, sources);
  }

  /** `add_source`: `add_sources` of a single source. */
  method AddSource(st: State, source: Cell) returns (r: State)
    requires Valid(st) && InBounds(st.terrain, source)
    ensures r.terrain == st.terrain && r.sources == st.sources + [source]
    ensures Valid(r)
    ensures r.field[source] == Some(0)
    ensures NoIncrease(st.field, r.field)
    ensures IsSpreadOf(st.terrain, st.field[source := Some(0)], st.sources + [source], r.field)
    ensures Consistent(st) ==> Consistent(r)
  {
    r := AddSources(st, [source]);
    assert WriteEach(st.terrain, st.field, [source], Some(0)) == st.field[source := Some(0)];
  }

  /** `i` is the position of the first occurrence of `c` in `xs`. */
  ghost predicate FirstAt(xs: seq<Cell>, c: Cell, i: int) {
    0 <= i < |xs| && xs[i] == c && c !in xs[..i]
  }

  /** The position of the first occurrence of `c`: the first-match search
      that Python's `list.remove` performs. */
  function FirstIndex(xs: seq<Cell>, c: Cell): (i: nat)
    requires c in xs
    ensures FirstAt(xs, c, i)
  {
    if xs[0] == c then 0
    else
      var j := FirstIndex(xs[1..], c);
      assert xs[..j + 1] == [xs[0]] + xs[1..][..j];
      j + 1
  }

  /** `r` is `xs` with some entries left out and the others in their order. */
  predicate IsSubsequence(r: seq<Cell>, xs: seq<Cell>)
    decreases |xs|
  {
    if xs == [] then r == []
    else (r != [] && r[0] == xs[0] && IsSubsequence(r[1..], xs[1..])) || IsSubsequence(r, xs[1..])
  }

  lemma {:induction false} SubsequenceOfItself(xs: seq<Cell>)
    ensures IsSubsequence(xs, xs)
    decreases |xs|
  {
    if xs != [] {
      SubsequenceOfItself(xs[1..]);
    }
  }

  /** Leaving out the entry at `i` keeps the others in order. */
  lemma {:induction false} DropOneIsSubsequence(xs: seq<Cell>, i: nat)
    requires i < |xs|
    ensures IsSubsequence(xs[..i] + xs[i + 1..], xs)
    decreases i
  {
    if i == 0 {
      assert xs[..i] + xs[i + 1..] == xs[1..];
      SubsequenceOfItself(xs[1..]);
    } else {
      var r := xs[..i] + xs[i + 1..];
      DropOneIsSubsequence(xs[1..], i - 1);
      assert r[1..] == xs[1..][..i - 1] + xs[1..][i..];
    }
  }

  /** A subsequence of a subsequence of `c` is a subsequence of `c`. */
  lemma {:induction false} SubsequenceTransitive(a: seq<Cell>, b: seq<Cell>, c: seq<Cell>)
    requires IsSubsequence(a, b) && IsSubsequence(b, c)
    ensures IsSubsequence(a, c)
    decreases |c|
  {
    if c != [] {
      if IsSubsequence(b, c[1..]) {
        SubsequenceTransitive(a, b, c[1..]);
      } else {
        assert b != [] && b[0] == c[0] && IsSubsequence(b[1..], c[1..]);
        if IsSubsequence(a, b[1..]) {
          SubsequenceTransitive(a, b[1..], c[1..]);
        } else {
          assert a != [] && a[0] == b[0] && IsSubsequence(a[1..], b[1..]);
          SubsequenceTransitive(a[1..], b[1..], c[1..]);
        }
      }
    }
  }

  /** Python's `list.remove(c)` with its ValueError swallowed: the first
      occurrence of `c` goes, and a list without `c` is left as it is. */
  function RemoveFirst(xs: seq<Cell>, c: Cell): (r: seq<Cell>)
    ensures c !in xs ==> r == xs
    ensures c in xs ==> exists i :: FirstAt(xs, c, i) && r == xs[..i] + xs[i + 1..]
    ensures multiset(r) == multiset(xs) - multiset{c}
    ensures IsSubsequence(r, xs)
  {
    if c in xs then
      var i := FirstIndex(xs, c);
      assert xs == xs[..i] + [c] + xs[i + 1..];
      DropOneIsSubsequence(xs, i);
      xs[..i] + xs[i + 1..]
    else
      SubsequenceOfItself(xs);
      xs
  }

  /** Taking away `a` and then `b` is taking away both. */
  lemma MinusTwice(m: multiset<Cell>, a: multiset<Cell>, b: multiset<Cell>)
    ensures (m - a) - b == m - (a + b)
    ensures forall x :: x in (m - a) - b ==> x in m
  {
    assert forall x :: ((m - a) - b)[x] == (m - (a + b))[x];
  }

  /** Which entries a run of removals takes, read off the list alone: walk
      it from the front and drop an entry while `m` still owes one of its
      value. The first `m[v]` occurrences of each `v` go; later ones stay. */
  function DropFirsts(xs: seq<Cell>, m: multiset<Cell>): (r: seq<Cell>)
    decreases |xs|
  {
    if xs == [] then []
    else if xs[0] in m then DropFirsts(xs[1..], m - multiset{xs[0]})
    else [xs[0]] + DropFirsts(xs[1..], m)
  }

  /** A list that does not start with `c` keeps its head when `c` goes. */
  lemma RemoveFirstCons(xs: seq<Cell>, c: Cell)
    requires xs != [] && xs[0] != c
    ensures RemoveFirst(xs, c) == [xs[0]] + RemoveFirst(xs[1..], c)
  {
    if c in xs {
      assert c in xs[1..];
      var j := FirstIndex(xs[1..], c);
      assert FirstIndex(xs, c) == j + 1;
      assert xs[..j + 1] + xs[j + 2..] == [xs[0]] + (xs[1..][..j] + xs[1..][j + 1..]);
    } else {
      assert c !in xs[1..];
    }
  }

  /** A list that starts with `c` loses its head when `c` goes. */
  lemma RemoveFirstHead(xs: seq<Cell>, c: Cell)
    requires xs != [] && xs[0] == c
    ensures RemoveFirst(xs, c) == xs[1..]
  {
    assert FirstIndex(xs, c) == 0;
  }

  /** Removing the first `c` and then the first occurrences `m` owes is
      removing the first occurrences `m` and one more `c` owe. */
  lemma {:induction false} DropAfterRemoveFirst(xs: seq<Cell>, m: multiset<Cell>, c: Cell)
    ensures DropFirsts(RemoveFirst(xs, c), m) == DropFirsts(xs, m + multiset{c})
    decreases |xs|
  {
    if xs == [] {
    } else if xs[0] == c {
      RemoveFirstHead(xs, c);
      assert (m + multiset{c}) - multiset{c} == m;
    } else {
      var owed := if xs[0] in m then m - multiset{xs[0]} else m;
      DropAfterRemoveFirst(xs[1..], owed, c);
      RemovedPastOther(xs, m, c, RemoveFirst(xs[1..], c), owed);
    }
  }

  /** `RemoveFirst` walks past a head other than `c`, and so does the
      dropping that follows it. */
  lemma RemovedPastOther(xs: seq<Cell>, m: multiset<Cell>, c: Cell, rest: seq<Cell>, owed: multiset<Cell>)
    requires xs != [] && xs[0] != c && rest == RemoveFirst(xs[1..], c)
    requires owed == if xs[0] in m then m - multiset{xs[0]} else m
    requires DropFirsts(rest, owed) == DropFirsts(xs[1..], owed + multiset{c})
    ensures DropFirsts(RemoveFirst(xs, c), m) == DropFirsts(xs, m + multiset{c})
  {
    RemoveFirstCons(xs, c);
    assert xs == [xs[0]] + xs[1..];
    DropPastOther(xs[0], xs[1..], rest, m, c, owed);
  }

  /** The step of the lemma above for a head `x` other than `c`: the head
      is dropped or kept alike on both sides. */
  lemma DropPastOther(x: Cell, tail: seq<Cell>, rest: seq<Cell>, m: multiset<Cell>, c: Cell, owed: multiset<Cell>)
    requires x != c
    requires owed == if x in m then m - multiset{x} else m
    requires DropFirsts(rest, owed) == DropFirsts(tail, owed + multiset{c})
    ensures DropFirsts([x] + rest, m) == DropFirsts([x] + tail, m + multiset{c})
  {
    DropHead(x, rest, m);
    DropHead(x, tail, m + multiset{c});
    OwedSwap(m, x, c);
  }

  /** Owing one more `c` does not change whether, or how much, another
      value is owed. */
  lemma OwedSwap(m: multiset<Cell>, x: Cell, c: Cell)
    requires x != c
    ensures x in m + multiset{c} <==> x in m
    ensures x in m ==> (m - multiset{x}) + multiset{c} == (m + multiset{c}) - multiset{x}
  {
    if x in m {
      assert forall y :: ((m - multiset{x}) + multiset{c})[y] == ((m + multiset{c}) - multiset{x})[y];
    }
  }

  /** One step of `DropFirsts` on a list written as head and tail. */
  lemma DropHead(x: Cell, tail: seq<Cell>, m: multiset<Cell>)
    ensures DropFirsts([x] + tail, m)
      == if x in m then DropFirsts(tail, m - multiset{x}) else [x] + DropFirsts(tail, m)
  {
    assert ([x] + tail)[1..] == tail;
  }

  /** `for c in cs: list.remove(c)`, each ValueError swallowed: one
      occurrence per listed cell goes, where there is one, and it is always
      the first one still present, so the last copies of a value survive. */
  function RemoveEach(xs: seq<Cell>, cs: seq<Cell>): (r: seq<Cell>)
    ensures multiset(r) == multiset(xs) - multiset(cs)
    ensures forall x :: x in r ==> x in xs
    ensures IsSubsequence(r, xs)
    ensures r == DropFirsts(xs, multiset(cs))
    decreases |cs|
  {
    if cs == [] then
      SubsequenceOfItself(xs);
      DropNothing(xs);
      xs
    else
      var once := RemoveFirst(xs, cs[0]);
      assert cs == [cs[0]] + cs[1..];
      MinusTwice(multiset(xs), multiset{cs[0]}, multiset(cs[1..]));
      SubsequenceTransitive(RemoveEach(once, cs[1..]), once, xs);
      DropStep(xs, cs);
      RemoveEach(once, cs[1..])
  }

  /** Removing the first listed cell, then dropping for the rest of the
      list, drops for the whole list. */
  lemma DropStep(xs: seq<Cell>, cs: seq<Cell>)
    requires cs != []
    ensures DropFirsts(RemoveFirst(xs, cs[0]), multiset(cs[1..])) == DropFirsts(xs, multiset(cs))
  {
    DropAfterRemoveFirst(xs, multiset(cs[1..]), cs[0]);
    assert cs == [cs[0]] + cs[1..];
    assert multiset(cs[1..]) + multiset{cs[0]} == multiset(cs);
  }

  /** With nothing owed, nothing is dropped. */
  lemma {:induction false} DropNothing(xs: seq<Cell>)
    ensures DropFirsts(xs, multiset{}) == xs
    decreases |xs|
  {
    if xs != [] {
      DropNothing(xs[1..]);
      assert xs == [xs[0]] + xs[1..];
    }
  }

  /** Removing `a` from `[a, b, a]` leaves `[b, a]`: the first copy goes. */
  lemma RemoveEachTakesFirst(a: Cell, b: Cell)
    requires a != b
    ensures RemoveEach([a, b, a], [a]) == [b, a]
  {
  }

  /** `update_fields` as evidently intended: clear every listed cell, then
      spread from the field's sources, reading the call of `spread` as
      passing the list the line before it builds (see
      `UpdateFieldsAsWritten` for the code as it stands). That list of known
      neighbours is never used (spread ignores its argument); all it can do
      is make `reduce` raise when `fields` is empty, after the (then empty)
      clearing loop. */
  method UpdateFields(st: State, fields: seq<Cell>) returns (r: State, outcome: Outcome)
    requires Valid(st)
    requires forall k :: 0 <= k < |fields| ==> InBounds(st.terrain, fields[k])
    ensures r.terrain == st.terrain && r.sources == st.sources && Valid(r)
    ensures outcome == ReduceOfEmpty <==> fields == []
    ensures outcome == Done <==> fields != []
    ensures outcome == ReduceOfEmpty ==> r == st
    ensures outcome == Done ==> IsSpreadOf(st.terrain, WriteEach(st.terrain, st.field, fields, None), st.sources, r.field)
  {
    var t := st.terrain;
    var h := WriteEach(t, st.field, fields, None);
    if fields == [] {
      assert h == st.field;
      return st, ReduceOfEmpty;
    }
    var g := Spread(t, h, st.sources);
    r, outcome := State(t, g, st.sources), Done;
  }

  /** `update_fields` as the code stands: the collapsed neighbour list is
      bound to a misspelt name, and `spread` is then called with the
      intended name, which is bound nowhere. So once the listed cells are
      cleared, every non-empty call raises NameError before anything is
      spread, and an empty one still raises in `reduce`. The call never
      ends normally, and it leaves the cleared cells unknown. */
  method UpdateFieldsAsWritten(st: State, fields: seq<Cell>) returns (r: State, outcome: Outcome)
    requires Valid(st)
    requires forall k :: 0 <= k < |fields| ==> InBounds(st.terrain, fields[k])
    ensures r.terrain == st.terrain && r.sources == st.sources && Valid(r)
    ensures outcome == ReduceOfEmpty <==> fields == []
    ensures outcome == NameError <==> fields != []
    ensures forall c :: c in st.field ==> r.field[c] == if c in fields then None else st.field[c]
    ensures r.field == WriteEach(st.terrain, st.field, fields, None)
  {
    var t := st.terrain;
    var h := WriteEach(t, st.field, fields, None);
    r := State(t, h, st.sources);
    if fields == [] {
      return r, ReduceOfEmpty;
    }
    outcome := NameError;
  }

  /** A table that differs from `f` only by clearing `removed` is what the
      `set_at` loop over `removed` writes, and that loop leaves it as it is. */
  lemma ClearedTable(t: Terrain, f: Field, g: Field, removed: seq<Cell>)
    requires IsGrid(t, f) && g.Keys == f.Keys
    requires forall k :: 0 <= k < |removed| ==> InBounds(t, removed[k])
    requires forall c :: c in f ==> g[c] == if c in removed then None else f[c]
    ensures g == WriteEach(t, f, removed, None)
    ensures WriteEach(t, g, removed, None) == g
  {
  }

  /** The state that the removals hand to `update_fields`: the withdrawn
      cells cleared, and a sub-list of the sources. */
  lemma ClearedState(st: State, g: Field, removed: seq<Cell>, sources: seq<Cell>)
    requires Valid(st) && g.Keys == st.field.Keys
    requires forall c :: c in removed ==> c in st.field
    requires forall c :: c in st.field ==> g[c] == if c in removed then None else st.field[c]
    requires forall x :: x in sources ==> x in st.sources
    ensures forall k :: 0 <= k < |removed| ==> InBounds(st.terrain, removed[k])
    ensures g == WriteEach(st.terrain, st.field, removed, None)
    ensures WriteEach(st.terrain, g, removed, None) == g
    ensures Valid(State(st.terrain, g, sources))
  {
    assert forall k :: 0 <= k < |removed| ==> removed[k] in removed;
    ClearedTable(st.terrain, st.field, g, removed);
    forall k | 0 <= k < |sources|
      ensures InBounds(st.terrain, sources[k])
    {
      assert sources[k] in sources;
    }
  }

  /** `remove_source`: withdraw the source's distances, drop its first
      occurrence from the list (a missing source is tolerated), and update
      the withdrawn cells. A source that holds no distance withdraws
      nothing, so the update raises; the list has been changed by then. */
  method RemoveSource(st: State, source: Cell) returns (r: State, outcome: Outcome)
    requires Valid(st) && InBounds(st.terrain, source)
    ensures r.terrain == st.terrain && r.sources == RemoveFirst(st.sources, source) && Valid(r)
    ensures outcome == ReduceOfEmpty <==> st.field[source].None?
    ensures outcome == Done <==> st.field[source].Some?
    ensures outcome == ReduceOfEmpty ==> r.field == st.field
    ensures outcome == Done ==> IsSpreadOf(st.terrain, RemoveFieldsOfSource(st.terrain, st.field, source).g, r.sources, r.field)
  {
    var t := st.terrain;
    var w := RemoveFieldsOfSource(t, st.field, source);
    var sources := RemoveFirst(st.sources, source);
    ClearedState(st, w.g, w.removed, sources);
    r, outcome := UpdateFields(State(t, w.g, sources), w.removed);
  }

  /** Withdrawing the only source of a consistent table clears every cell
      it reached: a cell at distance `d` is cleared, because the sweep
      clears a closer neighbour of it first and, by induction on `d`, no
      neighbour that could keep it survives. */
  lemma {:induction false} ClearedAt(t: Terrain, c: Cell, y: Cell, d: nat)
    requires WellFormed(t) && InBounds(t, c) && InBounds(t, y)
    requires ShortestHops(t, {c})[y] == Some(d)
    ensures RemoveFieldsOfSource(t, ShortestHops(t, {c}), c).g[y].None?
    decreases d
  {
    var f := ShortestHops(t, {c});
    var r := RemoveFieldsOfSource(t, f, c);
    ZeroExactlyAtSources(t, {c}, c);
    RemovalSettles(t, f, c);
    if d == 0 {
      ZeroExactlyAtSources(t, {c}, y);
      assert r.removed[0] == y;
    } else {
      ShortestHopsPredecessor(t, {c}, y);
      var z :| Step(t, z, y) && InBounds(t, z) && f[z].Some? && f[z].value < d;
      ClearedAt(t, c, z, f[z].value);
      assert z in r.removed;
      if r.g[y].Some? {
        assert r.g[y] == f[y] && Below(f[z], r.g[y]);
        var w :| w in t.neighbours(y) && w in r.g && Below(r.g[w], r.g[y]);
        assert InBounds(t, w) && r.g[w] == f[w];
        ClearedAt(t, c, w, f[w].value);
        assert false;
      }
    }
  }

  /** Withdrawing the only source of a consistent table leaves the blank
      table. */
  lemma WithdrawOnlySource(t: Terrain, c: Cell)
    requires WellFormed(t) && InBounds(t, c)
    ensures ShortestHops(t, {c})[c] == Some(0)
    ensures RemoveFieldsOfSource(t, ShortestHops(t, {c}), c).g == AllUnknown(t)
  {
    var f := ShortestHops(t, {c});
    var g := RemoveFieldsOfSource(t, f, c).g;
    ZeroExactlyAtSources(t, {c}, c);
    forall y | y in g
      ensures g[y].None?
    {
      if f[y].Some? {
        ClearedAt(t, c, y, f[y].value);
      }
    }
  }

  /** `add_source` on a freshly set up field gives the consistent field of
      that one source. */
  method AddToBlank(t: Terrain, c: Cell) returns (r: State)
    requires WellFormed(t) && InBounds(t, c)
    ensures r == State(t, ShortestHops(t, {c}), [c])
  {
    var s0 := Setup(t);
    SetupConsistent(t);
    r := AddSource(s0, c);
    assert Elements(s0.sources + [c]) == {c};
  }

  /** `remove_source` of the only source of a consistent field ends
      normally with no sources and the blank table `setup` builds. */
  method RemoveOnlySource(st: State, c: Cell) returns (r: State, outcome: Outcome)
    requires WellFormed(st.terrain) && InBounds(st.terrain, c)
    requires st.sources == [c] && st.field == ShortestHops(st.terrain, {c})
    ensures outcome == Done
    ensures r == Setup(st.terrain)
  {
    WithdrawOnlySource(st.terrain, c);
    r, outcome := RemoveSource(st, c);
    assert r.sources == [] by {
      assert multiset(r.sources) == multiset{};
    }
    SpreadFromNoSources(st.terrain, RemoveFieldsOfSource(st.terrain, st.field, c).g, r.field);
  }

  /** `remove_source` undoes `add_source`: on a freshly set up field, adding
      a source and removing it again ends normally with no sources and the
      blank table `setup` built. */
  method AddThenRemove(t: Terrain, c: Cell) returns (r: State, outcome: Outcome)
    requires WellFormed(t) && InBounds(t, c)
    ensures outcome == Done
    ensures r == Setup(t)
  {
    var s1 := AddToBlank(t, c);
    r, outcome := RemoveOnlySource(s1, c);
  }

  /** `remove_source` as the code stands: the source's distances are
      withdrawn and its first occurrence leaves the list, and then the
      update raises without spreading. A source that holds a distance
      withdraws at least itself, so the update raises NameError and the
      withdrawn cells stay unknown; one that holds none withdraws nothing,
      and `reduce` raises first. */
  method RemoveSourceAsWritten(st: State, source: Cell) returns (r: State, outcome: Outcome)
    requires Valid(st) && InBounds(st.terrain, source)
    ensures r.terrain == st.terrain && r.sources == RemoveFirst(st.sources, source) && Valid(r)
    ensures r.field == RemoveFieldsOfSource(st.terrain, st.field, source).g
    ensures outcome == ReduceOfEmpty <==> st.field[source].None?
    ensures outcome == NameError <==> st.field[source].Some?
  {
    var t := st.terrain;
    var w := RemoveFieldsOfSource(t, st.field, source);
    var sources := RemoveFirst(st.sources, source);
    ClearedState(st, w.g, w.removed, sources);
    r, outcome := UpdateFieldsAsWritten(State(t, w.g, sources), w.removed);
  }

  /** As the code stands, `remove_source` never completes the round trip:
      adding a source to a freshly set up field and removing it again
      raises NameError, although the table and the list it leaves behind
      are the blank ones `setup` built (compare `AddThenRemove`). */
  method AddThenRemoveAsWritten(t: Terrain, c: Cell) returns (r: State, outcome: Outcome)
    requires WellFormed(t) && InBounds(t, c)
    ensures outcome == NameError
    ensures r == Setup(t)
  {
    var s1 := AddToBlank(t, c);
    WithdrawOnlySource(t, c);
    r, outcome := RemoveSourceAsWritten(s1, c);
    assert r.sources == [] by {
      assert multiset(r.sources) == multiset{};
    }
  }

  /** The list comprehension of `remove_sources`: sweep each listed source
      in turn, each sweep on the table the previous one left, and chain
      their withdrawn cells. */
  function SweepEach(t: Terrain, f: Field, cs: seq<Cell>): (r: Sweep)
    requires WellFormed(t) && IsGrid(t, f)
    requires forall k :: 0 <= k < |cs| ==> InBounds(t, cs[k])
    ensures cs != [] && f[cs[0]].Some? ==> r.removed != [] && r.removed[0] == cs[0]
    decreases |cs|
  {
    if cs == [] then Sweep(f, [], [])
    else
      var w := RemoveFieldsOfSource(t, f, cs[0]);
      Sweep(SweepEach(t, w.g, cs[1..]).g, w.removed + SweepEach(t, w.g, cs[1..]).removed, [])
  }

  /** The chained sweeps withdraw only cells that held a distance, clear
      exactly those, and withdraw nothing just when no listed source held a
      distance. */
  lemma {:induction false} SweepEachFrame(t: Terrain, f: Field, cs: seq<Cell>)
    requires WellFormed(t) && IsGrid(t, f)
    requires forall k :: 0 <= k < |cs| ==> InBounds(t, cs[k])
    ensures var r := SweepEach(t, f, cs);
            && r.g.Keys == f.Keys
            && (forall c :: c in r.removed ==> c in f && f[c].Some?)
            && (forall c :: c in f ==> r.g[c] == if c in r.removed then None else f[c])
            && (r.removed == [] <==> forall k :: 0 <= k < |cs| ==> f[cs[k]].None?)
    decreases |cs|
  {
    if cs != [] {
      var w := RemoveFieldsOfSource(t, f, cs[0]);
      SweepEachFrame(t, w.g, cs[1..]);
      assert forall k :: 1 <= k < |cs| ==> cs[k] == cs[1..][k - 1];
    }
  }

  /** One more sweep of the comprehension. */
  lemma SweepEachStep(t: Terrain, g: Field, cs: seq<Cell>, i: nat)
    requires WellFormed(t) && IsGrid(t, g)
    requires forall k :: 0 <= k < |cs| ==> InBounds(t, cs[k])
    requires i < |cs|
    ensures var w := RemoveFieldsOfSource(t, g, cs[i]);
            && IsGrid(t, w.g)
            && SweepEach(t, g, cs[i..]).g == SweepEach(t, w.g, cs[i + 1..]).g
            && SweepEach(t, g, cs[i..]).removed == w.removed + SweepEach(t, w.g, cs[i + 1..]).removed
  {
    assert cs[i..][0] == cs[i];
    assert cs[i..][1..] == cs[i + 1..];
  }

  lemma AppendAssoc(a: seq<Cell>, b: seq<Cell>, c: seq<Cell>)
    ensures a + (b + c) == (a + b) + c
  {
  }

  /** The invariant of `WithdrawAll`'s loop: after `i` sweeps, sweeping
      the rest of the list from the current table `g` finishes the chained
      sweeps, and `cleared` is what has been withdrawn so far. */
  ghost predicate WithdrawnSoFar(t: Terrain, f: Field, cs: seq<Cell>, g: Field, cleared: seq<Cell>, i: nat) {
    && WellFormed(t) && IsGrid(t, f) && IsGrid(t, g)
    && (forall k :: 0 <= k < |cs| ==> InBounds(t, cs[k]))
    && i <= |cs|
    && SweepEach(t, g, cs[i..]).g == SweepEach(t, f, cs).g
    && cleared + SweepEach(t, g, cs[i..]).removed == SweepEach(t, f, cs).removed
  }

  lemma WithdrawStart(t: Terrain, f: Field, cs: seq<Cell>)
    requires WellFormed(t) && IsGrid(t, f)
    requires forall k :: 0 <= k < |cs| ==> InBounds(t, cs[k])
    ensures WithdrawnSoFar(t, f, cs, f, [], 0)
  {
    assert cs[0..] == cs;
  }

  /** One turn of `WithdrawAll`'s loop keeps its invariant. */
  lemma WithdrawStep(t: Terrain, f: Field, cs: seq<Cell>, g: Field, cleared: seq<Cell>, i: nat)
    requires WithdrawnSoFar(t, f, cs, g, cleared, i) && i < |cs|
    ensures var w := RemoveFieldsOfSource(t, g, cs[i]);
            WithdrawnSoFar(t, f, cs, w.g, cleared + w.removed, i + 1)
  {
    var w := RemoveFieldsOfSource(t, g, cs[i]);
    SweepEachStep(t, g, cs, i);
    AppendAssoc(cleared, w.removed, SweepEach(t, w.g, cs[i + 1..]).removed);
  }

  lemma WithdrawDone(t: Terrain, f: Field, cs: seq<Cell>, g: Field, cleared: seq<Cell>)
    requires WithdrawnSoFar(t, f, cs, g, cleared, |cs|)
    ensures g == SweepEach(t, f, cs).g && cleared == SweepEach(t, f, cs).removed
  {
    assert cs[|cs|..] == [];
  }

  /** The loop behind the comprehension of `remove_sources`: sweep the
      listed sources one after another on the shrinking table. */
  method WithdrawAll(t: Terrain, f: Field, cs: seq<Cell>) returns (g: Field, cleared: seq<Cell>)
    requires WellFormed(t) && IsGrid(t, f)
    requires forall k :: 0 <= k < |cs| ==> InBounds(t, cs[k])
    ensures g == SweepEach(t, f, cs).g && cleared == SweepEach(t, f, cs).removed
  {
    g, cleared := f, [];
    var i := 0;
    WithdrawStart(t, f, cs);
    while i < |cs|
      invariant WithdrawnSoFar(t, f, cs, g, cleared, i)
    {
      var w := RemoveFieldsOfSource(t, g, cs[i]);
      WithdrawStep(t, f, cs, g, cleared, i);
      g, cleared, i := w.g, cleared + w.removed, i + 1;
    }
    WithdrawDone(t, f, cs, g, cleared);
  }

  /** `remove_sources`: withdraw the distances of each listed source in
      turn, drop one occurrence of each from the list, and update every
      withdrawn cell. An empty list makes the first `reduce` raise before
      anything changes; if no listed source held a distance, nothing is
      withdrawn and the update raises, after the list has changed. */
  method RemoveSources(st: State, cs: seq<Cell>) returns (r: State, outcome: Outcome, cleared: seq<Cell>)
    requires Valid(st)
    requires forall k :: 0 <= k < |cs| ==> InBounds(st.terrain, cs[k])
    ensures r.terrain == st.terrain && Valid(r)
    ensures cs == [] ==> r == st && outcome == ReduceOfEmpty
    ensures cs != [] ==> r.sources == RemoveEach(st.sources, cs)
    ensures outcome == ReduceOfEmpty <==> forall c :: c in cs ==> st.field[c].None?
    ensures outcome != NameError
    ensures outcome == ReduceOfEmpty ==> r.field == st.field
    ensures forall c :: c in cleared ==> c in st.field && st.field[c].Some?
    ensures forall k :: 0 <= k < |cleared| ==> InBounds(st.terrain, cleared[k])
    ensures cleared == SweepEach(st.terrain, st.field, cs).removed
    ensures outcome == Done ==> IsSpreadOf(st.terrain, WriteEach(st.terrain, st.field, cleared, None), r.sources, r.field)
  {
    var t := st.terrain;
    cleared := [];
    if cs == [] {
      return st, ReduceOfEmpty, cleared;
    }
    var g;
    g, cleared := WithdrawAll(t, st.field, cs);
    SweepEachFrame(t, st.field, cs);
    var sources := RemoveEach(st.sources, cs);
    ClearedState(st, g, cleared, sources);
    r, outcome := UpdateFields(State(t, g, sources), cleared);
  }

  /** `remove_sources` as the code stands: every listed source is swept and
      dropped from the list, and then the update raises without spreading,
      so the withdrawn cells stay unknown. The call never ends normally. */
  method RemoveSourcesAsWritten(st: State, cs: seq<Cell>) returns (r: State, outcome: Outcome, cleared: seq<Cell>)
    requires Valid(st)
    requires forall k :: 0 <= k < |cs| ==> InBounds(st.terrain, cs[k])
    ensures r.terrain == st.terrain && Valid(r)
    ensures cs == [] ==> r == st && outcome == ReduceOfEmpty
    ensures cs != [] ==> r.sources == RemoveEach(st.sources, cs)
    ensures outcome == ReduceOfEmpty <==> forall c :: c in cs ==> st.field[c].None?
    ensures outcome != Done
    ensures forall c :: c in cleared ==> c in st.field && st.field[c].Some?
    ensures forall k :: 0 <= k < |cleared| ==> InBounds(st.terrain, cleared[k])
    ensures cleared == SweepEach(st.terrain, st.field, cs).removed
    ensures r.field == WriteEach(st.terrain, st.field, cleared, None)
  {
    var t := st.terrain;
    cleared := [];
    if cs == [] {
      return st, ReduceOfEmpty, cleared;
    }
    var g;
    g, cleared := WithdrawAll(t, st.field, cs);
    SweepEachFrame(t, st.field, cs);
    var sources := RemoveEach(st.sources, cs);
    ClearedState(st, g, cleared, sources);
    r, outcome := UpdateFieldsAsWritten(State(t, g, sources), cleared);
  }
}

=== FILE: grid.dfy ===
/** The grid store shared by every potential field: cell coordinates, the
    read-only terrain the fields consult, and the rows x cols table of
    distances with its raw get/set access. */
module Grid {

  /** A distance that may be absent: `None` is the source's Python `None`
      ("no distance known"). */
  datatype Option<T> = None | Some(value: T)

  /** The outcome of a raw table access: a value, or Python's IndexError. */
  datatype Access<T> = Value(value: T) | IndexError

  /** A map position (row, col). */
  datatype Cell = Cell(row: int, col: int)

  /** Python's order on (row, col) tuples: by row, then by column. */
  predicate CellBefore(a: Cell, b: Cell) {
    a.row < b.row || (a.row == b.row && a.col <= b.col)
  }

  /** The read-only collaborators of a field: the map size and adjacency of
      the game driver (`driver.rows`, `driver.cols`, `driver.neighbours`) and
      the LAND classification of the terrain map (`terrain.get_at(c) == LAND`). */
  datatype Terrain = Terrain(rows: nat, cols: nat, neighbours: Cell -> seq<Cell>, isLand: Cell -> bool)

  predicate InBounds(t: Terrain, c: Cell) {
    0 <= c.row < t.rows && 0 <= c.col < t.cols
  }

  /** The driver only ever reports in-bounds neighbours of in-bounds cells,
      and adjacency goes both ways (four-neighbour moves on the map). */
  ghost predicate WellFormed(t: Terrain) {
    && (forall c, n :: InBounds(t, c) && n in t.neighbours(c) ==> InBounds(t, n))
    && (forall c, n :: InBounds(t, c) && Adjacent(t, c, n) ==> Adjacent(t, n, c))
  }

  /** `n` is among the neighbours the driver reports for `c`. */
  ghost predicate Adjacent(t: Terrain, c: Cell, n: Cell) {
    n in t.neighbours(c)
  }

  /** One move of the spreading intensity: from `x` onto a LAND neighbour `y`. */
  predicate Step(t: Terrain, x: Cell, y: Cell) {
    y in t.neighbours(x) && t.isLand(y)
  }

  /** Every position of the map. */
  function Cells(t: Terrain): (s: set<Cell>)
    ensures forall c :: c in s <==> InBounds(t, c)
  {
    var s := set r: int, k: int | 0 <= r < t.rows && 0 <= k < t.cols :: Cell(r, k);
    assert forall c :: InBounds(t, c) ==> Cell(c.row, c.col) in s;
    s
  }

  /** The distance table: one optional hop count per cell. */
  type Field = map<Cell, Option<nat>>

  /** The table has exactly one entry per position of the map. */
  ghost predicate IsGrid(t: Terrain, f: Field) {
    forall c :: c in f <==> InBounds(t, c)
  }

  /** `a` is no larger than `b`, reading `None` as an unbounded distance. */
  predicate AtMost(a: Option<nat>, b: Option<nat>) {
    b.None? || (a.Some? && a.value <= b.value)
  }

  /** The freshly allocated table of `setup` and `recalculate`: nothing known. */
  function AllUnknown(t: Terrain): (f: Field)
    ensures IsGrid(t, f)
    ensures forall c :: c in f ==> f[c].None?
  {
    map c | c in Cells(t) :: None
  }

  /** Python list indexing `xs[i]` on a list of length `n`: a negative index
      counts from the end, anything else outside the list is an IndexError. */
  function PyIndex(i: int, n: nat): (r: Option<nat>)
    ensures r.Some? <==> 0 - n <= i < n
    ensures r.Some? ==> r.value < n && (r.value == i || r.value == i + n)
  {
    if 0 <= i < n then Some(i)
    else if 0 - n <= i < 0 then Some(i + n)
    else None
  }

  /** The cell that `field[row][col]` designates, if any. */
  function Resolve(t: Terrain, c: Cell): (r: Option<Cell>)
    ensures r.Some? <==> 0 - t.rows <= c.row < t.rows && 0 - t.cols <= c.col < t.cols
    ensures r.Some? ==> InBounds(t, r.value)
    ensures r.Some? ==> (r.value.row == c.row || r.value.row == c.row + t.rows)
    ensures r.Some? ==> (r.value.col == c.col || r.value.col == c.col + t.cols)
    ensures InBounds(t, c) ==> r == Some(c)
  {
    match (PyIndex(c.row, t.rows), PyIndex(c.col, t.cols))
    case (Some(r), Some(k)) => Some(Cell(r, k))
    case _ => None
  }

  /** `get_at`: the raw entry at `c`. */
  function GetAt(t: Terrain, f: Field, c: Cell): (r: Access<Option<nat>>)
    requires IsGrid(t, f)
    ensures r.IndexError? <==> !(0 - t.rows <= c.row < t.rows && 0 - t.cols <= c.col < t.cols)
    ensures InBounds(t, c) ==> r == Value(f[c])
    ensures r.Value? ==> r.value == f[Resolve(t, c).value]
  {
    match Resolve(t, c)
    case Some(p) => Value(f[p])
    case None => IndexError
  }

  /** `set_at`: overwrite the raw entry at `c`. */
  function SetAt(t: Terrain, f: Field, c: Cell, v: Option<nat>): (r: Access<Field>)
    requires IsGrid(t, f)
    ensures r.IndexError? <==> !(0 - t.rows <= c.row < t.rows && 0 - t.cols <= c.col < t.cols)
    ensures r.Value? ==> IsGrid(t, r.value)
    ensures InBounds(t, c) ==> r == Value(f[c := v])
  {
    match Resolve(t, c)
    case Some(p) => Value(f[p := v])
    case None => IndexError
  }

  /** Reading back after a write sees the written value at the written cell
      (under any spelling of it) and the old value everywhere else. */
  lemma GetAfterSet(t: Terrain, f: Field, c: Cell, v: Option<nat>, d: Cell)
    requires IsGrid(t, f) && SetAt(t, f, c, v).Value?
    ensures GetAt(t, SetAt(t, f, c, v).value, d) ==
              if Resolve(t, d).None? then IndexError
              else if Resolve(t, d) == Resolve(t, c) then Value(v)
              else GetAt(t, f, d)
  {
  }

  /** Adding a new member of `keys` to `w` shrinks what is left of `keys`. */
  lemma FewerLeft(keys: set<Cell>, w: set<Cell>, w2: set<Cell>, x: Cell)
    requires w <= w2 && x in keys && x in w2 && x !in w
    ensures keys - w2 < keys - w
  {
    assert x in keys - w && x !in keys - w2;
  }
}

=== FILE: paths.dfy ===
/** The intended meaning of a MinLandIntegerPotentialField: each cell holds
    the number of hops of the shortest walk that starts at some source and
    steps, between four-neighbours, only onto LAND cells; `None` where no such
    walk exists. This module defines that reference distance and its basic
    laws. */
module Paths {
  import opened Grid

  /** A walk: a non-empty sequence of cells each reached from the previous
      one by a `Step` onto LAND. Its first cell may lie on any terrain. */
  ghost predicate IsWalk(t: Terrain, p: seq<Cell>) {
    |p| >= 1 && forall i :: 0 <= i < |p| - 1 ==> Step(t, p[i], p[i + 1])
  }

  /** Some walk of exactly `k` hops leads from a cell of `sources` to `x`. */
  ghost predicate ReachesIn(t: Terrain, sources: set<Cell>, x: Cell, k: nat) {
    exists p :: IsWalk(t, p) && |p| == k + 1 && p[0] in sources && p[k] == x
  }

  /** `k` is the length of a shortest such walk. */
  ghost predicate IsShortest(t: Terrain, sources: set<Cell>, x: Cell, k: nat) {
    ReachesIn(t, sources, x, k) && forall j: nat :: j < k ==> !ReachesIn(t, sources, x, j)
  }

  /** A cell whose stored distance leaves no LAND neighbour more than one hop
      further away. */
  ghost predicate Relaxed(t: Terrain, g: Field, c: Cell) {
    && c in g && g[c].Some?
    && forall y :: Step(t, c, y) ==> y in g && g[y].Some? && g[y].value <= g[c].value + 1
  }

  lemma WalkExtend(t: Terrain, p: seq<Cell>, y: Cell)
    requires IsWalk(t, p) && Step(t, p[|p| - 1], y)
    ensures IsWalk(t, p + [y])
  {
    var q := p + [y];
    forall i | 0 <= i < |q| - 1
      ensures Step(t, q[i], q[i + 1])
    {
      if i < |p| - 1 {
        assert q[i] == p[i] && q[i + 1] == p[i + 1];
      }
    }
  }

  lemma WalkPrefix(t: Terrain, p: seq<Cell>, n: nat)
    requires IsWalk(t, p) && 1 <= n <= |p|
    ensures IsWalk(t, p[..n])
  {
    var q := p[..n];
    forall i | 0 <= i < |q| - 1
      ensures Step(t, q[i], q[i + 1])
    {
      assert q[i] == p[i] && q[i + 1] == p[i + 1];
    }
  }

  /** Walks that start on the map stay on it. */
  lemma {:induction false} WalkInBounds(t: Terrain, p: seq<Cell>)
    requires WellFormed(t) && IsWalk(t, p) && InBounds(t, p[0])
    ensures forall i :: 0 <= i < |p| ==> InBounds(t, p[i])
    decreases |p|
  {
    if |p| > 1 {
      var q := p[..|p| - 1];
      WalkPrefix(t, p, |p| - 1);
      WalkInBounds(t, q);
      assert InBounds(t, q[|p| - 2]);
      assert Step(t, p[|p| - 2], p[|p| - 1]);
      forall i | 0 <= i < |p|
        ensures InBounds(t, p[i])
      {
        if i < |p| - 1 { assert p[i] == q[i]; }
      }
    }
  }

  /** Whenever some walk reaches `x`, a shortest one does. */
  lemma {:induction false} ShortestExists(t: Terrain, sources: set<Cell>, x: Cell, k0: nat)
    requires ReachesIn(t, sources, x, k0)
    ensures exists k: nat :: IsShortest(t, sources, x, k)
    decreases k0
  {
    if !IsShortest(t, sources, x, k0) {
      var j: nat :| j < k0 && ReachesIn(t, sources, x, j);
      ShortestExists(t, sources, x, j);
    }
  }

  /** The hop distance from `sources` to `x`: the length of a shortest walk,
      or `None` when no walk reaches `x`. */
  ghost function Distance(t: Terrain, sources: set<Cell>, x: Cell): (r: Option<nat>)
    ensures r.Some? ==> IsShortest(t, sources, x, r.value)
    ensures r.None? <==> forall k: nat :: !ReachesIn(t, sources, x, k)
  {
    if exists k0: nat :: ReachesIn(t, sources, x, k0) then
      var k0: nat :| ReachesIn(t, sources, x, k0);
      ShortestExists(t, sources, x, k0);
      var k: nat :| IsShortest(t, sources, x, k);
      Some(k)
    else
      None
  }

  /** The reference field: the hop distance of every cell of the map. */
  ghost function ShortestHops(t: Terrain, sources: set<Cell>): (m: Field)
    ensures IsGrid(t, m)
    ensures forall c :: c in m ==> m[c] == Distance(t, sources, c)
  {
    map c | c in Cells(t) :: Distance(t, sources, c)
  }

  /** The cells of a list, as a set. */
  function Elements(xs: seq<Cell>): (s: set<Cell>)
    ensures forall c :: c in s <==> c in xs
  {
    set c | c in xs
  }

  /** Exactly the sources are at distance 0: a source is reached by the empty
      walk, and every other cell needs at least one hop. */
  lemma ZeroExactlyAtSources(t: Terrain, sources: set<Cell>, c: Cell)
    requires InBounds(t, c)
    ensures ShortestHops(t, sources)[c] == Some(0) <==> c in sources
  {
    if c in sources {
      assert IsWalk(t, [c]);
      assert ReachesIn(t, sources, c, 0);
    }
  }

  /** Every listed source is at distance 0 from the list. */
  lemma SourcesAtZero(t: Terrain, sources: seq<Cell>)
    requires forall k :: 0 <= k < |sources| ==> InBounds(t, sources[k])
    ensures forall k :: 0 <= k < |sources| ==> ShortestHops(t, Elements(sources))[sources[k]] == Some(0)
  {
    forall k | 0 <= k < |sources|
      ensures ShortestHops(t, Elements(sources))[sources[k]] == Some(0)
    {
      ZeroExactlyAtSources(t, Elements(sources), sources[k]);
    }
  }

  /** A cell at a positive distance is entered by a step from a cell on
      the map that is strictly closer to the sources. */
  lemma ShortestHopsPredecessor(t: Terrain, sources: set<Cell>, y: Cell)
    requires WellFormed(t) && forall s :: s in sources ==> InBounds(t, s)
    requires InBounds(t, y) && ShortestHops(t, sources)[y].Some? && ShortestHops(t, sources)[y].value > 0
    ensures exists z :: && Step(t, z, y) && InBounds(t, z) && ShortestHops(t, sources)[z].Some?
                        && ShortestHops(t, sources)[z].value < ShortestHops(t, sources)[y].value
  {
    var m := ShortestHops(t, sources);
    var d := m[y].value;
    var p :| IsWalk(t, p) && |p| == d + 1 && p[0] in sources && p[d] == y;
    var z := p[d - 1];
    WalkInBounds(t, p);
    WalkPrefix(t, p, d);
    assert p[..d][0] == p[0] && p[..d][d - 1] == z;
    assert ReachesIn(t, sources, z, d - 1);
    assert Step(t, p[d - 1], p[d]);
    assert m[z].Some? && m[z].value <= d - 1;
  }

  /** Shortest distances obey the triangle inequality along every step: each
      known cell is `Relaxed` in the reference field. */
  lemma ShortestHopsRelaxed(t: Terrain, sources: set<Cell>, c: Cell)
    requires WellFormed(t) && InBounds(t, c) && ShortestHops(t, sources)[c].Some?
    ensures Relaxed(t, ShortestHops(t, sources), c)
  {
    var m := ShortestHops(t, sources);
    var v := m[c].value;
    forall y | Step(t, c, y)
      ensures y in m && m[y].Some? && m[y].value <= v + 1
    {
      var p :| IsWalk(t, p) && |p| == v + 1 && p[0] in sources && p[v] == c;
      WalkExtend(t, p, y);
      assert (p + [y])[0] == p[0] && (p + [y])[v + 1] == y;
      assert ReachesIn(t, sources, y, v + 1);
    }
  }

  /** The smaller of two optional distances, `None` being unbounded. */
  function MinDistance(a: Option<nat>, b: Option<nat>): (r: Option<nat>)
    ensures AtMost(r, a) && AtMost(r, b)
    ensures r == a || r == b
  {
    if a.None? then b
    else if b.None? then a
    else if a.value <= b.value then a else b
  }

  /** Where several sources reach a cell, the lower distance wins: the field
      of a union of source sets is the pointwise minimum of their fields. */
  lemma ShortestHopsUnion(t: Terrain, s1: set<Cell>, s2: set<Cell>, c: Cell)
    requires InBounds(t, c)
    ensures ShortestHops(t, s1 + s2)[c] == MinDistance(ShortestHops(t, s1)[c], ShortestHops(t, s2)[c])
  {
    forall k: nat
      ensures ReachesIn(t, s1 + s2, c, k) <==> ReachesIn(t, s1, c, k) || ReachesIn(t, s2, c, k)
    {
      if ReachesIn(t, s1 + s2, c, k) {
        var p :| IsWalk(t, p) && |p| == k + 1 && p[0] in s1 + s2 && p[k] == c;
        if p[0] in s1 { assert ReachesIn(t, s1, c, k); } else { assert ReachesIn(t, s2, c, k); }
      }
      if ReachesIn(t, s1, c, k) {
        var p :| IsWalk(t, p) && |p| == k + 1 && p[0] in s1 && p[k] == c;
        assert p[0] in s1 + s2;
      }
      if ReachesIn(t, s2, c, k) {
        var p :| IsWalk(t, p) && |p| == k + 1 && p[0] in s2 && p[k] == c;
        assert p[0] in s1 + s2;
      }
    }
    var a := Distance(t, s1, c);
    var b := Distance(t, s2, c);
    var u := Distance(t, s1 + s2, c);
    if u.Some? {
      if a.Some? { assert !(a.value < u.value); }
      if b.Some? { assert !(b.value < u.value); }
    }
  }

  /** With no sources nothing is reachable: the reference field of the empty
      source list is the all-`None` table that `setup` allocates. */
  lemma ShortestHopsOfNothing(t: Terrain)
    ensures ShortestHops(t, {}) == AllUnknown(t)
  {
    var m := ShortestHops(t, {});
    forall c | c in m
      ensures m[c] == None
    {
      forall k: nat
        ensures !ReachesIn(t, {}, c, k)
      {
      }
    }
  }
  /** A table that can serve as the distance table of `sources`: every source
      holds 0, and every known distance is the length of some walk from a
      source and leaves every LAND neighbour at most one hop further. */
  ghost predicate IsDistanceTable(t: Terrain, sources: set<Cell>, g: Field) {
    && IsGrid(t, g)
    && (forall s :: s in sources ==> s in g && g[s] == Some(0))
    && (forall c :: c in g && g[c].Some? ==> Relaxed(t, g, c) && ReachesIn(t, sources, c, g[c].value))
  }

  /** In a table where every known cell is relaxed, the `j`-th cell of a walk
      from a cell at 0 holds at most `j`. */
  lemma {:induction false} RelaxedBound(t: Terrain, g: Field, p: seq<Cell>, j: nat)
    requires IsWalk(t, p) && j < |p|
    requires p[0] in g && g[p[0]] == Some(0)
    requires forall c :: c in g && g[c].Some? ==> Relaxed(t, g, c)
    ensures p[j] in g && g[p[j]].Some? && g[p[j]].value <= j
    decreases j
  {
    if j > 0 {
      RelaxedBound(t, g, p, j - 1);
      assert Step(t, p[j - 1], p[j]);
    }
  }

  /** A distance table holds, at each cell, exactly the reference distance. */
  lemma DistanceTableEntry(t: Terrain, sources: set<Cell>, g: Field, c: Cell)
    requires IsDistanceTable(t, sources, g) && c in g
    ensures g[c] == Distance(t, sources, c)
  {
    var r := Distance(t, sources, c);
    if g[c].Some? {
      assert ReachesIn(t, sources, c, g[c].value);
      assert r.Some?;
      if r.value < g[c].value {
        var k := r.value;
        var p :| IsWalk(t, p) && |p| == k + 1 && p[0] in sources && p[k] == c;
        RelaxedBound(t, g, p, k);
      }
    } else if r.Some? {
      var k := r.value;
      var p :| IsWalk(t, p) && |p| == k + 1 && p[0] in sources && p[k] == c;
      RelaxedBound(t, g, p, k);
    }
  }

  /** The reference field is the one and only distance table of in-bounds
      sources: the laws of `IsDistanceTable` pin every entry down. */
  lemma DistanceTableUnique(t: Terrain, sources: set<Cell>, g: Field)
    requires WellFormed(t)
    requires forall s :: s in sources ==> InBounds(t, s)
    ensures IsDistanceTable(t, sources, g) <==> g == ShortestHops(t, sources)
  {
    var m := ShortestHops(t, sources);
    if IsDistanceTable(t, sources, g) {
      forall c | c in g
        ensures g[c] == m[c]
      {
        DistanceTableEntry(t, sources, g, c);
      }
      assert g.Keys == m.Keys;
    }
    if g == m {
      forall s | s in sources
        ensures g[s] == Some(0)
      {
        ZeroExactlyAtSources(t, sources, s);
      }
      forall c | c in g && g[c].Some?
        ensures Relaxed(t, g, c)
      {
        ShortestHopsRelaxed(t, sources, c);
      }
    }
  }
}

=== FILE: retraction.dfy ===
/** `remove_fields_of_source`: withdraw the distances a source is taken to
    have caused, sweeping outwards from it with a deque of cells to check. */
module Retraction {
  import opened Grid
  import opened Paths

  /** `a` and `b` are both known and `a` is the smaller distance. */
  predicate Below(a: Option<nat>, b: Option<nat>) {
    a.Some? && b.Some? && a.value < b.value
  }

  /** The cells of `ns` holding a known distance above `v`, in list order:
      the comprehension that feeds the deque. */
  function Larger(g: Field, ns: seq<Cell>, v: nat): (r: seq<Cell>)
    requires forall k :: 0 <= k < |ns| ==> ns[k] in g
    ensures forall y :: y in r <==> y in ns && Below(Some(v), g[y])
    ensures |r| <= |ns|
  {
    if ns == [] then []
    else
      var rest := Larger(g, ns[1..], v);
      assert forall y :: y in ns <==> y == ns[0] || y in ns[1..];
      if Below(Some(v), g[ns[0]]) then [ns[0]] + rest else rest
  }

  /** The `reduce` with `or`: some cell of `ns` holds a known distance below `v`. */
  function HasSmaller(g: Field, ns: seq<Cell>, v: nat): (b: bool)
    requires forall k :: 0 <= k < |ns| ==> ns[k] in g
    ensures b <==> exists y :: y in ns && Below(g[y], Some(v))
  {
    if ns == [] then false
    else
      assert forall y :: y in ns <==> y == ns[0] || y in ns[1..];
      Below(g[ns[0]], Some(v)) || HasSmaller(g, ns[1..], v)
  }

  /** `deque.extendleft(xs)`: each element in turn is put at the left end, so
      `xs` ends up in front of `q` in reverse order. */
  function ExtendLeft(q: seq<Cell>, xs: seq<Cell>): (r: seq<Cell>)
    ensures |r| == |q| + |xs|
    ensures r[|xs|..] == q
    ensures forall k :: 0 <= k < |xs| ==> r[|xs| - 1 - k] == xs[k]
    decreases |xs|
  {
    if xs == [] then q else ExtendLeft([xs[0]] + q, xs[1..])
  }

  /** The list reversed: an independent description of `ExtendLeft`. */
  function Reverse(xs: seq<Cell>): (r: seq<Cell>)
    decreases |xs|
  {
    if xs == [] then [] else Reverse(xs[1..]) + [xs[0]]
  }

  lemma {:induction false} ReverseIndex(xs: seq<Cell>)
    ensures |Reverse(xs)| == |xs|
    ensures forall k :: 0 <= k < |xs| ==> Reverse(xs)[k] == xs[|xs| - 1 - k]
    decreases |xs|
  {
    if xs != [] {
      ReverseIndex(xs[1..]);
    }
  }

  /** Putting `xs` at the left end one by one is prepending `xs` reversed. */
  lemma ExtendLeftIsReversePrefix(q: seq<Cell>, xs: seq<Cell>)
    ensures ExtendLeft(q, xs) == Reverse(xs) + q
  {
    ReverseIndex(xs);
    var r := ExtendLeft(q, xs);
    forall k | 0 <= k < |r|
      ensures r[k] == (Reverse(xs) + q)[k]
    {
      if k >= |xs| {
        assert r[k] == r[|xs|..][k - |xs|];
      } else {
        assert r[|xs| - 1 - (|xs| - 1 - k)] == xs[|xs| - 1 - k];
      }
    }
  }

  /** The membership `ExtendLeft` keeps. */
  lemma ExtendLeftMembers(q: seq<Cell>, xs: seq<Cell>)
    ensures forall c :: c in ExtendLeft(q, xs) <==> c in q || c in xs
  {
    var r := ExtendLeft(q, xs);
    forall c | c in r
      ensures c in q || c in xs
    {
      var k :| 0 <= k < |r| && r[k] == c;
      if k >= |xs| {
        assert r[k] == r[|xs|..][k - |xs|];
      } else {
        assert r[|xs| - 1 - (|xs| - 1 - k)] == xs[|xs| - 1 - k];
      }
    }
    forall c | c in q || c in xs
      ensures c in r
    {
      if c in q {
        var k :| 0 <= k < |q| && q[k] == c;
        assert r[|xs|..][k] == c;
      } else {
        var k :| 0 <= k < |xs| && xs[k] == c;
        assert r[|xs| - 1 - k] == c;
      }
    }
  }

  /** No cell is listed twice. */
  ghost predicate Distinct(xs: seq<Cell>) {
    forall i, j :: 0 <= i < j < |xs| ==> xs[i] != xs[j]
  }

  /** Some neighbour of `y` that is not on the removed list had a known
      distance below `v` in the table `f`. */
  ghost predicate LowerSurvivor(t: Terrain, f: Field, removed: seq<Cell>, y: Cell, v: nat) {
    exists z :: z in t.neighbours(y) && z in f && z !in removed && Below(f[z], Some(v))
  }

  /** The state of the sweep: the table, the cells removed so far (in
      order) and the deque `fields_to_check` (its right end is popped). */
  datatype Sweep = Sweep(g: Field, removed: seq<Cell>, toCheck: seq<Cell>)

  /** Invariant, part one: removed cells, and only they, lost their known
      distance; every other cell is as in the starting table `f`. */
  ghost predicate SweepFrame(t: Terrain, f: Field, s: Sweep) {
    && WellFormed(t) && IsGrid(t, f) && s.g.Keys == f.Keys
    && Distinct(s.removed)
    && (forall c :: c in s.removed ==> c in f && f[c].Some?)
    && (forall c :: c in f ==> s.g[c] == if c in s.removed then None else f[c])
  }

  /** Every removed cell after the first neighbours an earlier removed cell
      of smaller distance, and each of its neighbours with a smaller distance
      had been removed before it. */
  ghost predicate Cascades(t: Terrain, f: Field, removed: seq<Cell>) {
    forall k :: 0 < k < |removed| ==>
      && removed[k] in f
      && (exists j :: 0 <= j < k && removed[k] in t.neighbours(removed[j]) && removed[j] in f && Below(f[removed[j]], f[removed[k]]))
      && forall z :: z in t.neighbours(removed[k]) && z in f && z !in removed[..k] ==> !Below(f[z], f[removed[k]])
  }

  /** In the final table `g`, every neighbour of a removed cell that still
      holds a distance above the removed cell's old one has a neighbour with
      a smaller distance: the sweep stops only where the table still offers
      a shorter way in. */
  ghost predicate Closed(t: Terrain, f: Field, g: Field, removed: seq<Cell>) {
    forall x, y :: x in removed && y in t.neighbours(x) && y in g && x in f && Below(f[x], g[y]) ==>
      exists z :: z in t.neighbours(y) && z in g && Below(g[z], g[y])
  }

  /** Part three: each queued cell is a neighbour of a removed cell with a
      smaller distance than its own. */
  ghost predicate SweepQueue(t: Terrain, f: Field, s: Sweep) {
    forall k :: 0 <= k < |s.toCheck| ==>
      && s.toCheck[k] in f
      && exists j :: 0 <= j < |s.removed| && s.toCheck[k] in t.neighbours(s.removed[j]) && s.removed[j] in f
                     && Below(f[s.removed[j]], f[s.toCheck[k]])
  }

  /** Part four: a surviving neighbour of a removed cell with a larger
      distance is still to be checked, or has a lower neighbour. */
  ghost predicate SweepPending(t: Terrain, f: Field, s: Sweep) {
    forall x, y :: x in s.removed && y in t.neighbours(x) && y in f && x in f && y !in s.removed && Below(f[x], f[y]) ==>
      y in s.toCheck || LowerSurvivor(t, f, s.removed, y, f[y].value)
  }

  ghost predicate SweepInv(t: Terrain, f: Field, s: Sweep) {
    && SweepFrame(t, f, s)
    && Cascades(t, f, s.removed)
    && SweepQueue(t, f, s)
    && SweepPending(t, f, s)
  }

  /** The loop may take a turn: the deque is non-empty and its right end is
      on the map. */
  ghost predicate Ready(t: Terrain, s: Sweep) {
    WellFormed(t) && IsGrid(t, s.g) && s.toCheck != [] && InBounds(t, s.toCheck[|s.toCheck| - 1])
  }

  /** One turn of the loop: pop the right end `loc`; if it still holds a
      distance and no neighbour holds a smaller one, remove it and put its
      neighbours with larger distances at the left end. A popped cell that
      was already cleared is passed over. */
  function CheckNext(t: Terrain, s: Sweep): (r: Sweep)
    requires Ready(t, s)
    ensures var loc := s.toCheck[|s.toCheck| - 1];
            r.removed != s.removed <==> s.g[loc].Some? && forall z :: z in t.neighbours(loc) ==> !Below(s.g[z], s.g[loc])
    ensures var loc := s.toCheck[|s.toCheck| - 1];
            r.removed == s.removed ==> r.g == s.g && r.toCheck == s.toCheck[..|s.toCheck| - 1]
    ensures var loc := s.toCheck[|s.toCheck| - 1];
            r.removed != s.removed ==> r.g == s.g[loc := None] && r.removed == s.removed + [loc]
    ensures var loc := s.toCheck[|s.toCheck| - 1];
            r.removed != s.removed ==>
              forall y :: y in r.toCheck <==> y in s.toCheck[..|s.toCheck| - 1] || (y in t.neighbours(loc) && Below(s.g[loc], r.g[y]))
  {
    var loc := s.toCheck[|s.toCheck| - 1];
    var rest := s.toCheck[..|s.toCheck| - 1];
    if s.g[loc].None? then Sweep(s.g, s.removed, rest)
    else
      var d := s.g[loc].value;
      var neighs := t.neighbours(loc);
      if HasSmaller(s.g, neighs, d) then Sweep(s.g, s.removed, rest)
      else
        var g' := s.g[loc := None];
        ExtendLeftMembers(rest, Larger(g', neighs, d));
        Sweep(g', s.removed + [loc], ExtendLeft(rest, Larger(g', neighs, d)))
  }

  lemma SweepReady(t: Terrain, f: Field, s: Sweep)
    requires SweepInv(t, f, s) && s.toCheck != []
    ensures Ready(t, s)
  {
    assert s.toCheck[|s.toCheck| - 1] in f;
  }

  /** The popped cell, and the facts about it every part of the invariant
      needs. */
  lemma PoppedFacts(t: Terrain, f: Field, s: Sweep)
    requires SweepInv(t, f, s) && Ready(t, s)
    ensures var loc := s.toCheck[|s.toCheck| - 1];
            && loc in f && f[loc].Some?
            && (s.g[loc].Some? ==> loc !in s.removed && s.g[loc] == f[loc])
            && (s.g[loc].None? ==> loc in s.removed)
            && exists j :: 0 <= j < |s.removed| && loc in t.neighbours(s.removed[j]) && s.removed[j] in f
                           && Below(f[s.removed[j]], f[loc])
  {
    var k := |s.toCheck| - 1;
    assert s.toCheck[k] in f;
  }

  /** What a removing turn writes and queues. */
  lemma RemovingTurn(t: Terrain, f: Field, s: Sweep)
    requires SweepInv(t, f, s) && Ready(t, s)
    requires var loc := s.toCheck[|s.toCheck| - 1];
             s.g[loc].Some? && !HasSmaller(s.g, t.neighbours(loc), s.g[loc].value)
    ensures var loc := s.toCheck[|s.toCheck| - 1];
            var r := CheckNext(t, s);
            && r.g == s.g[loc := None] && r.removed == s.removed + [loc]
            && (forall z :: z in t.neighbours(loc) && z in f && z !in s.removed ==> !Below(f[z], f[loc]))
            && (forall y :: y in r.toCheck <==> y in s.toCheck[..|s.toCheck| - 1] || (y in t.neighbours(loc) && Below(f[loc], r.g[y])))
            && (forall y :: y in t.neighbours(loc) && Below(f[loc], r.g[y]) ==> y in f && y !in r.removed && r.g[y] == f[y])
  {
    PoppedFacts(t, f, s);
  }

  /** A turn that passes its cell over only shortens the deque. */
  lemma PassingTurn(t: Terrain, f: Field, s: Sweep)
    requires SweepInv(t, f, s) && Ready(t, s)
    requires var loc := s.toCheck[|s.toCheck| - 1];
             s.g[loc].None? || HasSmaller(s.g, t.neighbours(loc), s.g[loc].value)
    ensures var loc := s.toCheck[|s.toCheck| - 1];
            && CheckNext(t, s) == Sweep(s.g, s.removed, s.toCheck[..|s.toCheck| - 1])
            && (loc in s.removed || LowerSurvivor(t, f, s.removed, loc, f[loc].value))
  {
    PoppedFacts(t, f, s);
    var loc := s.toCheck[|s.toCheck| - 1];
    if s.g[loc].Some? {
      var z :| z in t.neighbours(loc) && Below(s.g[z], s.g[loc]);
      assert z in f && z !in s.removed && Below(f[z], Some(f[loc].value));
    }
  }

  /** A removing turn keeps the frame: the one newly cleared cell joins the
      removed list, which it was not on before. */
  lemma FrameAfterRemoving(t: Terrain, f: Field, s: Sweep, loc: Cell, r: Sweep)
    requires SweepFrame(t, f, s) && loc in f && f[loc].Some? && loc !in s.removed
    requires r.g == s.g[loc := None] && r.removed == s.removed + [loc]
    ensures SweepFrame(t, f, r)
    ensures f.Keys - Elements(r.removed) < f.Keys - Elements(s.removed)
  {
    forall i, j | 0 <= i < j < |r.removed|
      ensures r.removed[i] != r.removed[j]
    {
      if j == |s.removed| {
        assert r.removed[i] in s.removed;
      }
    }
    FewerLeft(f.Keys, Elements(s.removed), Elements(r.removed), loc);
  }

  lemma CheckKeepsFrame(t: Terrain, f: Field, s: Sweep)
    requires SweepInv(t, f, s) && Ready(t, s)
    ensures SweepFrame(t, f, CheckNext(t, s))
    ensures s.removed <= CheckNext(t, s).removed
    ensures var r := CheckNext(t, s);
            f.Keys - Elements(r.removed) < f.Keys - Elements(s.removed)
            || (r.removed == s.removed && |r.toCheck| < |s.toCheck|)
  {
    var loc := s.toCheck[|s.toCheck| - 1];
    PoppedFacts(t, f, s);
    if s.g[loc].Some? && !HasSmaller(s.g, t.neighbours(loc), s.g[loc].value) {
      RemovingTurn(t, f, s);
      FrameAfterRemoving(t, f, s, loc, CheckNext(t, s));
    } else {
      PassingTurn(t, f, s);
    }
  }

  /** Appending a cell with a smaller-distance removed neighbour and no
      smaller surviving neighbour keeps the cascade. */
  lemma CascadesAfterRemoving(t: Terrain, f: Field, removed: seq<Cell>, loc: Cell)
    requires Cascades(t, f, removed) && loc in f
    requires exists j :: 0 <= j < |removed| && loc in t.neighbours(removed[j]) && removed[j] in f && Below(f[removed[j]], f[loc])
    requires forall z :: z in t.neighbours(loc) && z in f && z !in removed ==> !Below(f[z], f[loc])
    ensures Cascades(t, f, removed + [loc])
  {
    var rs := removed + [loc];
    forall k | 0 < k < |rs|
      ensures && rs[k] in f
              && (exists j :: 0 <= j < k && rs[k] in t.neighbours(rs[j]) && rs[j] in f && Below(f[rs[j]], f[rs[k]]))
              && forall z :: z in t.neighbours(rs[k]) && z in f && z !in rs[..k] ==> !Below(f[z], f[rs[k]])
    {
      if k < |removed| {
        assert rs[k] == removed[k] && rs[..k] == removed[..k];
        var j :| 0 <= j < k && removed[k] in t.neighbours(removed[j]) && removed[j] in f && Below(f[removed[j]], f[removed[k]]);
        assert rs[j] == removed[j];
      } else {
        var j :| 0 <= j < |removed| && loc in t.neighbours(removed[j]) && removed[j] in f && Below(f[removed[j]], f[loc]);
        assert rs[j] == removed[j] && rs[..k] == removed;
      }
    }
  }

  lemma CheckKeepsCascades(t: Terrain, f: Field, s: Sweep)
    requires SweepInv(t, f, s) && Ready(t, s)
    ensures Cascades(t, f, CheckNext(t, s).removed)
  {
    var loc := s.toCheck[|s.toCheck| - 1];
    PoppedFacts(t, f, s);
    if s.g[loc].Some? && !HasSmaller(s.g, t.neighbours(loc), s.g[loc].value) {
      RemovingTurn(t, f, s);
      CascadesAfterRemoving(t, f, s.removed, loc);
    } else {
      PassingTurn(t, f, s);
    }
  }

  /** The deque after a removing turn still holds only cells with a
      removed, smaller-distance neighbour. */
  lemma QueueAfterRemoving(t: Terrain, f: Field, s: Sweep, loc: Cell, r: Sweep)
    requires SweepQueue(t, f, s) && s.toCheck != [] && loc in f
    requires r.removed == s.removed + [loc]
    requires r.g.Keys == f.Keys && forall y :: y in t.neighbours(loc) ==> y in f
    requires forall y :: y in r.toCheck <==> y in s.toCheck[..|s.toCheck| - 1] || (y in t.neighbours(loc) && Below(f[loc], r.g[y]))
    requires forall y :: y in t.neighbours(loc) && Below(f[loc], r.g[y]) ==> y in f && r.g[y] == f[y]
    ensures SweepQueue(t, f, r)
  {
    var rest := s.toCheck[..|s.toCheck| - 1];
    forall k | 0 <= k < |r.toCheck|
      ensures && r.toCheck[k] in f
              && exists j :: 0 <= j < |r.removed| && r.toCheck[k] in t.neighbours(r.removed[j]) && r.removed[j] in f
                             && Below(f[r.removed[j]], f[r.toCheck[k]])
    {
      var y := r.toCheck[k];
      assert y in r.toCheck;
      if y in rest {
        var m :| 0 <= m < |rest| && rest[m] == y;
        assert s.toCheck[m] == y;
        var j :| 0 <= j < |s.removed| && y in t.neighbours(s.removed[j]) && s.removed[j] in f && Below(f[s.removed[j]], f[y]);
        assert r.removed[j] == s.removed[j];
      } else {
        assert r.removed[|s.removed|] == loc;
      }
    }
  }

  /** Dropping the right end of the deque keeps its invariant. */
  lemma QueueAfterPassing(t: Terrain, f: Field, s: Sweep, r: Sweep)
    requires SweepQueue(t, f, s) && s.toCheck != []
    requires r == Sweep(s.g, s.removed, s.toCheck[..|s.toCheck| - 1])
    ensures SweepQueue(t, f, r)
  {
    forall k | 0 <= k < |r.toCheck|
      ensures && r.toCheck[k] in f
              && exists j :: 0 <= j < |r.removed| && r.toCheck[k] in t.neighbours(r.removed[j]) && r.removed[j] in f
                             && Below(f[r.removed[j]], f[r.toCheck[k]])
    {
      assert r.toCheck[k] == s.toCheck[k];
    }
  }

  lemma CheckKeepsQueue(t: Terrain, f: Field, s: Sweep)
    requires SweepInv(t, f, s) && Ready(t, s)
    ensures SweepQueue(t, f, CheckNext(t, s))
  {
    var loc := s.toCheck[|s.toCheck| - 1];
    var r := CheckNext(t, s);
    PoppedFacts(t, f, s);
    if s.g[loc].Some? && !HasSmaller(s.g, t.neighbours(loc), s.g[loc].value) {
      RemovingTurn(t, f, s);
      QueueAfterRemoving(t, f, s, loc, r);
    } else {
      PassingTurn(t, f, s);
      QueueAfterPassing(t, f, s, r);
    }
  }

  /** After a removing turn every larger surviving neighbour is queued; a
      cell that relied on `loc` as its lower neighbour is one of them, since
      adjacency goes both ways. */
  lemma PendingAfterRemoving(t: Terrain, f: Field, s: Sweep, loc: Cell, r: Sweep)
    requires WellFormed(t) && IsGrid(t, f)
    requires SweepPending(t, f, s) && s.toCheck != [] && loc == s.toCheck[|s.toCheck| - 1] && loc in f
    requires r.removed == s.removed + [loc]
    requires r.g.Keys == f.Keys && forall y :: y in t.neighbours(loc) ==> y in f
    requires forall c :: c in f ==> r.g[c] == if c in r.removed then None else f[c]
    requires forall y :: y in r.toCheck <==> y in s.toCheck[..|s.toCheck| - 1] || (y in t.neighbours(loc) && Below(f[loc], r.g[y]))
    ensures SweepPending(t, f, r)
  {
    var rest := s.toCheck[..|s.toCheck| - 1];
    assert s.toCheck == rest + [loc];
    forall x, y | x in r.removed && y in t.neighbours(x) && y in f && x in f && y !in r.removed && Below(f[x], f[y])
      ensures y in r.toCheck || LowerSurvivor(t, f, r.removed, y, f[y].value)
    {
      assert r.g[y] == f[y];
      if x != loc {
        assert x in s.removed && y != loc;
        if y !in s.toCheck {
          var z :| z in t.neighbours(y) && z in f && z !in s.removed && Below(f[z], Some(f[y].value));
          if z == loc {
            assert Adjacent(t, y, loc) && InBounds(t, y);
            assert Adjacent(t, loc, y);
          } else {
            assert z !in r.removed;
          }
        }
      }
    }
  }

  /** A passed-over cell was removed already or has a lower neighbour. */
  lemma PendingAfterPassing(t: Terrain, f: Field, s: Sweep, r: Sweep)
    requires SweepPending(t, f, s) && s.toCheck != []
    requires var loc := s.toCheck[|s.toCheck| - 1];
             loc in f && f[loc].Some? && (loc in s.removed || LowerSurvivor(t, f, s.removed, loc, f[loc].value))
    requires r == Sweep(s.g, s.removed, s.toCheck[..|s.toCheck| - 1])
    ensures SweepPending(t, f, r)
  {
    var loc := s.toCheck[|s.toCheck| - 1];
    assert s.toCheck == r.toCheck + [loc];
  }

  lemma CheckKeepsPending(t: Terrain, f: Field, s: Sweep)
    requires SweepInv(t, f, s) && Ready(t, s)
    ensures SweepPending(t, f, CheckNext(t, s))
  {
    var loc := s.toCheck[|s.toCheck| - 1];
    PoppedFacts(t, f, s);
    if s.g[loc].Some? && !HasSmaller(s.g, t.neighbours(loc), s.g[loc].value) {
      RemovingTurn(t, f, s);
      CheckKeepsFrame(t, f, s);
      PendingAfterRemoving(t, f, s, loc, CheckNext(t, s));
    } else {
      PassingTurn(t, f, s);
      PendingAfterPassing(t, f, s, CheckNext(t, s));
    }
  }

  /** One turn of the loop keeps the sweep's invariant and makes progress. */
  lemma CheckKeepsInv(t: Terrain, f: Field, s: Sweep)
    requires SweepInv(t, f, s) && Ready(t, s)
    ensures SweepInv(t, f, CheckNext(t, s))
    ensures s.removed <= CheckNext(t, s).removed
    ensures var r := CheckNext(t, s);
            f.Keys - Elements(r.removed) < f.Keys - Elements(s.removed)
            || (r.removed == s.removed && |r.toCheck| < |s.toCheck|)
  {
    CheckKeepsFrame(t, f, s);
    CheckKeepsCascades(t, f, s);
    CheckKeepsQueue(t, f, s);
    CheckKeepsPending(t, f, s);
  }

  /** Clearing the source and queueing its neighbours with larger distances
      starts the sweep in its invariant. */
  lemma SweepAtStart(t: Terrain, f: Field, source: Cell)
    requires WellFormed(t) && IsGrid(t, f) && InBounds(t, source) && f[source].Some?
    ensures var g0 := f[source := None];
            SweepInv(t, f, Sweep(g0, [source], Larger(g0, t.neighbours(source), f[source].value)))
  {
    var g0 := f[source := None];
    var s := Sweep(g0, [source], Larger(g0, t.neighbours(source), f[source].value));
    forall k | 0 <= k < |s.toCheck|
      ensures && s.toCheck[k] in f
              && exists j :: 0 <= j < |s.removed| && s.toCheck[k] in t.neighbours(s.removed[j]) && s.removed[j] in f
                             && Below(f[s.removed[j]], f[s.toCheck[k]])
    {
      assert s.toCheck[k] in s.toCheck;
      assert s.removed[0] == source;
    }
    forall x, y | x in s.removed && y in t.neighbours(x) && y in f && x in f && y !in s.removed && Below(f[x], f[y])
      ensures y in s.toCheck
    {
      assert x == source;
    }
  }

  /** With the deque empty, pending neighbours have all been settled. */
  lemma SweepAtEnd(t: Terrain, f: Field, s: Sweep)
    requires SweepFrame(t, f, s) && SweepPending(t, f, s) && s.toCheck == []
    ensures Closed(t, f, s.g, s.removed)
  {
    forall x, y | x in s.removed && y in t.neighbours(x) && y in s.g && x in f && Below(f[x], s.g[y])
      ensures exists z :: z in t.neighbours(y) && z in s.g && Below(s.g[z], s.g[y])
    {
      assert y in f && y !in s.removed && s.g[y] == f[y];
      assert y !in s.toCheck;
      var z :| z in t.neighbours(y) && z in f && z !in s.removed && Below(f[z], Some(f[y].value));
      assert s.g[z] == f[z];
    }
  }

  /** The rest of the loop `while fields_to_check`: take turns until the
      deque is empty. */
  function Finish(t: Terrain, f: Field, s: Sweep): (r: Sweep)
    requires SweepInv(t, f, s)
    ensures SweepInv(t, f, r) && r.toCheck == []
    ensures s.removed <= r.removed
    decreases f.Keys - Elements(s.removed), |s.toCheck|
  {
    if s.toCheck == [] then s
    else
      SweepReady(t, f, s);
      CheckKeepsInv(t, f, s);
      Finish(t, f, CheckNext(t, s))
  }

  /** The sweep's starting state: the source cleared, and its neighbours
      with larger distances queued. */
  function Start(t: Terrain, f: Field, source: Cell): (s: Sweep)
    requires WellFormed(t) && IsGrid(t, f) && InBounds(t, source) && f[source].Some?
    ensures SweepInv(t, f, s) && s.removed == [source]
    ensures forall y :: y in s.toCheck <==> y in t.neighbours(source) && Below(f[source], f[y])
  {
    var g0 := f[source := None];
    SweepAtStart(t, f, source);
    Sweep(g0, [source], Larger(g0, t.neighbours(source), f[source].value))
  }

  /** `remove_fields_of_source`, returning the final table and the list of
      removed cells. If the source holds no distance, nothing happens and
      nothing is returned. Otherwise the source is cleared and returned
      first; then, repeatedly, a cell taken from the right end of the deque
      that still holds a distance and has no neighbour with a smaller one
      is cleared, appended to the result, and its neighbours with larger
      distances go to the left end of the deque. */
  function RemoveFieldsOfSource(t: Terrain, f: Field, source: Cell): (r: Sweep)
    requires WellFormed(t) && IsGrid(t, f) && InBounds(t, source)
    ensures r.g.Keys == f.Keys
    ensures r.removed == [] <==> f[source].None?
    ensures f[source].None? ==> r.g == f
    ensures r.removed != [] ==> r.removed[0] == source
    ensures forall c :: c in r.removed ==> c in f && f[c].Some?
    ensures forall c :: c in f ==> r.g[c] == if c in r.removed then None else f[c]
  {
    if f[source].None? then Sweep(f, [], [])
    else Finish(t, f, Start(t, f, source))
  }

  /** Where the sweep of `remove_fields_of_source` stops: no cell is removed
      twice; each removed cell after the source was reached from an earlier
      one of smaller distance, and every smaller neighbour of it had been
      removed before it; and in the final table, every neighbour of a
      removed cell still holding a larger distance has a neighbour holding
      a smaller one. */
  lemma RemovalSettles(t: Terrain, f: Field, source: Cell)
    requires WellFormed(t) && IsGrid(t, f) && InBounds(t, source)
    ensures var r := RemoveFieldsOfSource(t, f, source);
            && Distinct(r.removed)
            && Cascades(t, f, r.removed)
            && Closed(t, f, r.g, r.removed)
  {
    if f[source].Some? {
      SweepAtEnd(t, f, Finish(t, f, Start(t, f, source)));
    }
  }

  /** A finished sweep from `source`: it clears exactly its removed cells,
      starts at the source, cascades outwards and leaves the table closed. */
  ghost predicate Settled(t: Terrain, f: Field, source: Cell, s: Sweep) {
    && SweepFrame(t, f, s)
    && s.removed != [] && s.removed[0] == source
    && Cascades(t, f, s.removed)
    && Closed(t, f, s.g, s.removed)
  }

  /** A cell that `b` did not remove, but that neighbours a cell `b` removed
      with a smaller distance, has a neighbour that `b` also kept with a
      smaller distance. */
  lemma KeptHasLowerKept(t: Terrain, f: Field, b: Sweep, x: Cell, y: Cell)
    requires SweepFrame(t, f, b) && Closed(t, f, b.g, b.removed)
    requires x in b.removed && y in t.neighbours(x) && y in f && y !in b.removed && Below(f[x], f[y])
    ensures exists z :: z in t.neighbours(y) && z in f && z !in b.removed && Below(f[z], f[y])
  {
    assert b.g[y] == f[y];
    var z :| z in t.neighbours(y) && z in b.g && Below(b.g[z], b.g[y]);
    assert z in f && z !in b.removed && b.g[z] == f[z];
  }

  /** Every cell among the first `k` that `a` removed is removed by `b`. */
  lemma {:induction false} PrefixRemoved(t: Terrain, f: Field, source: Cell, a: Sweep, b: Sweep, k: nat)
    requires Settled(t, f, source, a) && Settled(t, f, source, b)
    requires k <= |a.removed|
    ensures forall m :: 0 <= m < k ==> a.removed[m] in b.removed
    decreases k
  {
    if k > 0 {
      PrefixRemoved(t, f, source, a, b, k - 1);
      var x := a.removed[k - 1];
      if k - 1 > 0 && x !in b.removed {
        var j :| 0 <= j < k - 1 && x in t.neighbours(a.removed[j]) && a.removed[j] in f && Below(f[a.removed[j]], f[x]);
        KeptHasLowerKept(t, f, b, a.removed[j], x);
        assert false;
      }
    }
  }

  /** The table a sweep leaves does not depend on the order the deque hands
      out its cells: two finished sweeps from the same source remove the
      same cells and leave the same table. */
  lemma SweepSetUnique(t: Terrain, f: Field, source: Cell, a: Sweep, b: Sweep)
    requires Settled(t, f, source, a) && Settled(t, f, source, b)
    ensures forall c :: c in a.removed <==> c in b.removed
    ensures a.g == b.g
  {
    PrefixRemoved(t, f, source, a, b, |a.removed|);
    PrefixRemoved(t, f, source, b, a, |b.removed|);
  }

  /** Whatever order the deque hands out its cells, a finished sweep from
      `source` leaves the table that `remove_fields_of_source` leaves. */
  lemma AnyOrderSameTable(t: Terrain, f: Field, source: Cell, s: Sweep)
    requires Settled(t, f, source, s)
    ensures s.g == RemoveFieldsOfSource(t, f, source).g
  {
    assert source in s.removed;
    var r := RemoveFieldsOfSource(t, f, source);
    RemovalSettles(t, f, source);
    SweepSetUnique(t, f, source, s, r);
  }
}

=== FILE: scenarios.dfy ===
/** Concrete maps: a bounded grid with four-neighbour adjacency, and the
    distances the field holds on a few small examples of it. */
module Scenarios {
  import opened Grid
  import opened Paths
  import opened Propagation
  import opened Retraction
  import opened MinLandField

  /** The orthogonal neighbours of `c` that lie on a `rows` x `cols` map
      without wrap-around. */
  function BoundedNeighbours(rows: nat, cols: nat, c: Cell): (ns: seq<Cell>)
  {
    (if c.row > 0 then [Cell(c.row - 1, c.col)] else [])
    + (if c.row + 1 < rows then [Cell(c.row + 1, c.col)] else [])
    + (if c.col > 0 then [Cell(c.row, c.col - 1)] else [])
    + (if c.col + 1 < cols then [Cell(c.row, c.col + 1)] else [])
  }

  function Bounded(rows: nat, cols: nat, isLand: Cell -> bool): (t: Terrain)
  {
    Terrain(rows, cols, c => BoundedNeighbours(rows, cols, c), isLand)
  }

  function Abs(x: int): nat {
    if x < 0 then -x else x
  }

  /** Grid distance, ignoring terrain. */
  function Manhattan(a: Cell, b: Cell): nat {
    Abs(a.row - b.row) + Abs(a.col - b.col)
  }

  /** A neighbour on the bounded grid is on the map and has the cell back
      among its own neighbours. */
  lemma BoundedNeighbourBack(rows: nat, cols: nat, c: Cell, n: Cell)
    requires 0 <= c.row < rows && 0 <= c.col < cols && n in BoundedNeighbours(rows, cols, c)
    ensures 0 <= n.row < rows && 0 <= n.col < cols && c in BoundedNeighbours(rows, cols, n)
  {
    var back := BoundedNeighbours(rows, cols, n);
    if n == Cell(c.row - 1, c.col) {
      assert Cell(n.row + 1, n.col) in back;
    } else if n == Cell(c.row + 1, c.col) {
      assert Cell(n.row - 1, n.col) in back;
    } else if n == Cell(c.row, c.col - 1) {
      assert Cell(n.row, n.col + 1) in back;
    } else {
      assert n == Cell(c.row, c.col + 1);
      assert Cell(n.row, n.col - 1) in back;
    }
  }

  /** The bounded grid reports only cells on the map, and each move can be
      undone by the opposite one. */
  lemma BoundedWellFormed(rows: nat, cols: nat, isLand: Cell -> bool)
    ensures WellFormed(Bounded(rows, cols, isLand))
  {
    var t := Bounded(rows, cols, isLand);
    forall c, n | InBounds(t, c) && n in t.neighbours(c)
      ensures InBounds(t, n)
    {
      BoundedNeighbourBack(rows, cols, c, n);
    }
    forall c, n | InBounds(t, c) && Adjacent(t, c, n)
      ensures Adjacent(t, n, c)
    {
      BoundedNeighbourBack(rows, cols, c, n);
    }
  }

  /** Each step of a bounded grid moves one cell, row-wise or column-wise. */
  lemma StepIsUnit(rows: nat, cols: nat, isLand: Cell -> bool, x: Cell, y: Cell)
    requires Step(Bounded(rows, cols, isLand), x, y)
    ensures Manhattan(x, y) == 1
  {
  }

  /** A walk of `j` hops ends at most `j` cells away from where it began. */
  lemma {:induction false} WalkWithinManhattan(rows: nat, cols: nat, isLand: Cell -> bool, p: seq<Cell>, j: nat)
    requires IsWalk(Bounded(rows, cols, isLand), p) && j < |p|
    ensures Manhattan(p[0], p[j]) <= j
    decreases j
  {
    if j > 0 {
      WalkWithinManhattan(rows, cols, isLand, p, j - 1);
      StepIsUnit(rows, cols, isLand, p[j - 1], p[j]);
    }
  }

  /** Hence no cell is closer, in hops, than it is in grid distance to some
      source. */
  lemma ReachesNoCloser(rows: nat, cols: nat, isLand: Cell -> bool, sources: set<Cell>, x: Cell, k: nat)
    requires ReachesIn(Bounded(rows, cols, isLand), sources, x, k)
    ensures exists s :: s in sources && Manhattan(s, x) <= k
  {
    var p :| IsWalk(Bounded(rows, cols, isLand), p) && |p| == k + 1 && p[0] in sources && p[k] == x;
    WalkWithinManhattan(rows, cols, isLand, p, k);
  }

  function AllLand(c: Cell): bool { true }

  // ---------------------------------------------------------------------
  // An open 5 x 5 map with one source in the middle.

  function Open5(): (t: Terrain)
    ensures WellFormed(t)
  {
    BoundedWellFormed(5, 5, AllLand);
    Bounded(5, 5, AllLand)
  }

  /** The walk that leaves the centre upwards and then turns left. */
  lemma CentreToCorner()
    ensures ReachesIn(Open5(), {Cell(2, 2)}, Cell(0, 0), 4)
  {
    var p := [Cell(2, 2), Cell(1, 2), Cell(0, 2), Cell(0, 1), Cell(0, 0)];
    assert Step(Open5(), p[0], p[1]) && Step(Open5(), p[1], p[2]) && Step(Open5(), p[2], p[3]) && Step(Open5(), p[3], p[4]);
    assert IsWalk(Open5(), p);
  }

  lemma CentreToFarCorner()
    ensures ReachesIn(Open5(), {Cell(2, 2)}, Cell(4, 4), 4)
  {
    var p := [Cell(2, 2), Cell(3, 2), Cell(4, 2), Cell(4, 3), Cell(4, 4)];
    assert Step(Open5(), p[0], p[1]) && Step(Open5(), p[1], p[2]) && Step(Open5(), p[2], p[3]) && Step(Open5(), p[3], p[4]);
    assert IsWalk(Open5(), p);
  }

  /** A cell reached in `k` hops that lies at least `k` cells from every
      source is at hop distance exactly `k`. */
  lemma ExactDistance(rows: nat, cols: nat, isLand: Cell -> bool, sources: set<Cell>, x: Cell, k: nat)
    requires ReachesIn(Bounded(rows, cols, isLand), sources, x, k)
    requires forall s :: s in sources ==> Manhattan(s, x) >= k
    ensures Distance(Bounded(rows, cols, isLand), sources, x) == Some(k)
  {
    var t := Bounded(rows, cols, isLand);
    var r := Distance(t, sources, x);
    assert r.Some?;
    ReachesNoCloser(rows, cols, isLand, sources, x, r.value);
  }

  /** A field over the open 5 x 5 map whose only source is the centre,
      once consistent (as `recalculate` and `add_source` leave it), holds
      4 in both far corners and 0 at the centre. */
  lemma OpenGridCorners(st: State)
    requires Consistent(st) && st.terrain == Open5() && st.sources == [Cell(2, 2)]
    ensures st.field[Cell(0, 0)] == Some(4)
    ensures st.field[Cell(4, 4)] == Some(4)
    ensures st.field[Cell(2, 2)] == Some(0)
  {
    assert Elements(st.sources) == {Cell(2, 2)};
    CentreToCorner();
    CentreToFarCorner();
    ExactDistance(5, 5, AllLand, {Cell(2, 2)}, Cell(0, 0), 4);
    ExactDistance(5, 5, AllLand, {Cell(2, 2)}, Cell(4, 4), 4);
    ZeroExactlyAtSources(Open5(), {Cell(2, 2)}, Cell(2, 2));
  }

  // ---------------------------------------------------------------------
  // A 3 x 3 map split by a column of water.

  function NotMiddleColumn(c: Cell): bool { c.col != 1 }

  function Walled(): (t: Terrain)
    ensures WellFormed(t)
  {
    BoundedWellFormed(3, 3, NotMiddleColumn);
    Bounded(3, 3, NotMiddleColumn)
  }

  /** A walk that starts in the left column never leaves it. */
  lemma {:induction false} StaysLeft(p: seq<Cell>, j: nat)
    requires IsWalk(Walled(), p) && j < |p| && p[0].col == 0
    ensures p[j].col == 0
    decreases j
  {
    if j > 0 {
      StaysLeft(p, j - 1);
      assert Step(Walled(), p[j - 1], p[j]);
    }
  }

  /** Intensity does not cross the wall: with a source on the left, a
      consistent field knows no distance on the right. */
  lemma WallBlocks(st: State, row: int)
    requires Consistent(st) && st.terrain == Walled() && st.sources == [Cell(1, 0)]
    requires 0 <= row < 3
    ensures st.field[Cell(row, 2)] == None
  {
    var S := {Cell(1, 0)};
    assert Elements(st.sources) == S;
    forall k: nat
      ensures !ReachesIn(Walled(), S, Cell(row, 2), k)
    {
      if ReachesIn(Walled(), S, Cell(row, 2), k) {
        var p :| IsWalk(Walled(), p) && |p| == k + 1 && p[0] in S && p[k] == Cell(row, 2);
        StaysLeft(p, k);
      }
    }
  }

  // ---------------------------------------------------------------------
  // A 1 x 5 line with a source at each end.

  function Line(): (t: Terrain)
    ensures WellFormed(t)
  {
    BoundedWellFormed(1, 5, AllLand);
    Bounded(1, 5, AllLand)
  }

  function BothEnds(): set<Cell> { {Cell(0, 0), Cell(0, 4)} }

  lemma LineSecond()
    ensures Distance(Line(), BothEnds(), Cell(0, 1)) == Some(1)
  {
    var p := [Cell(0, 0), Cell(0, 1)];
    assert Step(Line(), p[0], p[1]);
    assert IsWalk(Line(), p);
    ExactDistance(1, 5, AllLand, BothEnds(), Cell(0, 1), 1);
  }

  lemma LineMiddle()
    ensures Distance(Line(), BothEnds(), Cell(0, 2)) == Some(2)
  {
    var p := [Cell(0, 0), Cell(0, 1), Cell(0, 2)];
    assert Step(Line(), p[0], p[1]) && Step(Line(), p[1], p[2]);
    assert IsWalk(Line(), p);
    ExactDistance(1, 5, AllLand, BothEnds(), Cell(0, 2), 2);
  }

  lemma LineFourth()
    ensures Distance(Line(), BothEnds(), Cell(0, 3)) == Some(1)
  {
    var p := [Cell(0, 4), Cell(0, 3)];
    assert Step(Line(), p[0], p[1]);
    assert IsWalk(Line(), p);
    ExactDistance(1, 5, AllLand, BothEnds(), Cell(0, 3), 1);
  }

  /** The distances on the line with sources at both ends: 0 1 2 1 0. */
  lemma LineBothEnds()
    ensures var m := ShortestHops(Line(), BothEnds());
            && m[Cell(0, 0)] == Some(0) && m[Cell(0, 1)] == Some(1) && m[Cell(0, 2)] == Some(2)
            && m[Cell(0, 3)] == Some(1) && m[Cell(0, 4)] == Some(0)
  {
    ZeroExactlyAtSources(Line(), BothEnds(), Cell(0, 0));
    ZeroExactlyAtSources(Line(), BothEnds(), Cell(0, 4));
    LineSecond();
    LineMiddle();
    LineFourth();
  }

  /** Unfolding the sweep by one turn. */
  lemma FinishStep(t: Terrain, f: Field, s: Sweep)
    requires SweepInv(t, f, s) && s.toCheck != []
    ensures Ready(t, s) && SweepInv(t, f, CheckNext(t, s))
    ensures Finish(t, f, s) == Finish(t, f, CheckNext(t, s))
  {
    SweepReady(t, f, s);
    CheckKeepsInv(t, f, s);
  }

  /** Clearing the right-hand source queues its one neighbour. */
  lemma LineStart(f: Field)
    requires WellFormed(Line()) && IsGrid(Line(), f)
    requires f[Cell(0, 1)] == Some(1) && f[Cell(0, 2)] == Some(2) && f[Cell(0, 3)] == Some(1) && f[Cell(0, 4)] == Some(0)
    ensures var s := Start(Line(), f, Cell(0, 4));
            && s.toCheck == [Cell(0, 3)] && s.removed == [Cell(0, 4)]
            && s.g[Cell(0, 1)] == Some(1) && s.g[Cell(0, 2)] == Some(2) && s.g[Cell(0, 3)] == Some(1) && s.g[Cell(0, 4)] == None
  {
    assert Line().neighbours(Cell(0, 4)) == [Cell(0, 3)];
  }

  /** The first turn on the line: the right neighbour of the withdrawn
      source sees no smaller distance and goes, queueing the middle cell. */
  lemma LineFirstTurn(s: Sweep)
    requires Ready(Line(), s) && s.toCheck == [Cell(0, 3)]
    requires s.g[Cell(0, 1)] == Some(1) && s.g[Cell(0, 2)] == Some(2) && s.g[Cell(0, 3)] == Some(1) && s.g[Cell(0, 4)] == None
    ensures CheckNext(Line(), s).removed == s.removed + [Cell(0, 3)]
    ensures CheckNext(Line(), s).toCheck == [Cell(0, 2)]
    ensures CheckNext(Line(), s).g[Cell(0, 1)] == Some(1) && CheckNext(Line(), s).g[Cell(0, 2)] == Some(2)
  {
    var t := Line();
    assert t.neighbours(Cell(0, 3)) == [Cell(0, 2), Cell(0, 4)];
    assert !HasSmaller(s.g, [Cell(0, 2), Cell(0, 4)], 1);
    var g' := s.g[Cell(0, 3) := None];
    assert Larger(g', [Cell(0, 2), Cell(0, 4)], 1) == [Cell(0, 2)];
  }

  /** The second turn: the middle cell still sees 1 on its left and stays. */
  lemma LineSecondTurn(s: Sweep)
    requires Ready(Line(), s) && s.toCheck == [Cell(0, 2)]
    requires s.g[Cell(0, 1)] == Some(1) && s.g[Cell(0, 2)] == Some(2)
    ensures CheckNext(Line(), s) == Sweep(s.g, s.removed, [])
  {
    var t := Line();
    assert t.neighbours(Cell(0, 2)) == [Cell(0, 1), Cell(0, 3)];
    assert HasSmaller(s.g, [Cell(0, 1), Cell(0, 3)], 2);
  }

  /** A sweep whose deque empties after two turns ends with the state after
      them. */
  lemma FinishInTwo(t: Terrain, f: Field, s: Sweep)
    requires SweepInv(t, f, s) && s.toCheck != []
    ensures Ready(t, s)
    ensures CheckNext(t, s).toCheck != [] ==> Ready(t, CheckNext(t, s))
    ensures CheckNext(t, s).toCheck != [] && CheckNext(t, CheckNext(t, s)).toCheck == [] ==>
              Finish(t, f, s) == CheckNext(t, CheckNext(t, s))
  {
    FinishStep(t, f, s);
    var s1 := CheckNext(t, s);
    if s1.toCheck != [] {
      FinishStep(t, f, s1);
    }
  }

  /** The two turns of the sweep on the line, from its starting state. */
  lemma LineTwoTurns(s0: Sweep)
    requires Ready(Line(), s0) && s0.toCheck == [Cell(0, 3)] && s0.removed == [Cell(0, 4)]
    requires s0.g[Cell(0, 1)] == Some(1) && s0.g[Cell(0, 2)] == Some(2) && s0.g[Cell(0, 3)] == Some(1) && s0.g[Cell(0, 4)] == None
    ensures var s1 := CheckNext(Line(), s0);
            && s1.toCheck != [] && Ready(Line(), s1)
            && CheckNext(Line(), s1).toCheck == []
            && CheckNext(Line(), s1).removed == [Cell(0, 4), Cell(0, 3)]
  {
    LineFirstTurn(s0);
    var s1 := CheckNext(Line(), s0);
    assert s1.g.Keys == s0.g.Keys;
    LineSecondTurn(s1);
  }

  /** Withdrawing the right-hand source sweeps away it and its neighbour,
      and stops at the middle cell, which still sees a smaller distance on
      its left. */
  lemma LineWithdrawal(f: Field)
    requires IsGrid(Line(), f)
    requires f[Cell(0, 1)] == Some(1) && f[Cell(0, 2)] == Some(2) && f[Cell(0, 3)] == Some(1) && f[Cell(0, 4)] == Some(0)
    ensures RemoveFieldsOfSource(Line(), f, Cell(0, 4)).removed == [Cell(0, 4), Cell(0, 3)]
  {
    var s0 := Start(Line(), f, Cell(0, 4));
    LineStart(f);
    FinishInTwo(Line(), f, s0);
    LineTwoTurns(s0);
  }

  /** The table the withdrawal leaves: 0 1 2 - -. */
  lemma WithdrawnLine(f: Field)
    requires IsGrid(Line(), f)
    requires f[Cell(0, 0)] == Some(0) && f[Cell(0, 1)] == Some(1) && f[Cell(0, 2)] == Some(2)
    requires f[Cell(0, 3)] == Some(1) && f[Cell(0, 4)] == Some(0)
    ensures WellFormed(Line())
    ensures var h := RemoveFieldsOfSource(Line(), f, Cell(0, 4)).g;
            && IsGrid(Line(), h)
            && h[Cell(0, 0)] == Some(0) && h[Cell(0, 1)] == Some(1) && h[Cell(0, 2)] == Some(2)
            && h[Cell(0, 3)] == None && h[Cell(0, 4)] == None
  {
    LineWithdrawal(f);
  }

  /** From the left-hand source alone, the fourth cell is three hops away. */
  lemma LineFromLeft()
    ensures Distance(Line(), Elements([Cell(0, 0)]), Cell(0, 3)) == Some(3)
  {
    assert Elements([Cell(0, 0)]) == {Cell(0, 0)};
    var p := [Cell(0, 0), Cell(0, 1), Cell(0, 2), Cell(0, 3)];
    assert Step(Line(), p[0], p[1]) && Step(Line(), p[1], p[2]) && Step(Line(), p[2], p[3]);
    assert IsWalk(Line(), p);
    ExactDistance(1, 5, AllLand, {Cell(0, 0)}, Cell(0, 3), 3);
  }

  /** Spread from the left-hand source cannot lower the three known cells:
      each written distance is the length of a walk from that source. */
  lemma LeftKept(h: Field, g: Field, k: int)
    requires IsGrid(Line(), h) && 0 <= k <= 2 && h[Cell(0, k)] == Some(k) && h[Cell(0, 0)] == Some(0)
    requires NoIncrease(h, g) && WritesAreWalks(Line(), h, [Cell(0, 0)], g)
    ensures g[Cell(0, k)] == Some(k)
  {
    var c := Cell(0, k);
    if g[c] != h[c] {
      var v := g[c].value;
      var p :| IsWalk(Line(), p) && IsSeed(h, [Cell(0, 0)], p[0]) && h[p[0]].value + |p| - 1 == v && p[|p| - 1] == c;
      WalkWithinManhattan(1, 5, AllLand, p, |p| - 1);
    }
  }

  /** The only cells stepping onto the fourth and fifth cells of the line
      are their neighbours on it. */
  lemma LineSteps(y: Cell, c: Cell)
    requires InBounds(Line(), y) && Step(Line(), y, c) && (c == Cell(0, 3) || c == Cell(0, 4))
    ensures c == Cell(0, 3) ==> y == Cell(0, 2) || y == Cell(0, 4)
    ensures c == Cell(0, 4) ==> y == Cell(0, 3)
  {
  }

  /** Spreading from the left-hand source over the table 0 1 2 - - leaves
      the fourth cell unknown: nothing can step onto it from a cell whose
      distance was rewritten. */
  lemma HoleStays(h: Field, g: Field)
    requires IsGrid(Line(), h)
    requires h[Cell(0, 0)] == Some(0) && h[Cell(0, 1)] == Some(1) && h[Cell(0, 2)] == Some(2)
    requires h[Cell(0, 3)] == None && h[Cell(0, 4)] == None
    requires IsSpreadOf(Line(), h, [Cell(0, 0)], g)
    ensures g[Cell(0, 3)] == None
  {
    LeftKept(h, g, 2);
    var c := Cell(0, 3);
    if g[c].Some? {
      var y :| Step(Line(), y, c) && y in g && Active(h, [Cell(0, 0)], g, y) && g[y].Some? && g[y].value + 1 == g[c].value;
      LineSteps(y, c);
      if y == Cell(0, 4) {
        var y' :| Step(Line(), y', y) && y' in g && Active(h, [Cell(0, 0)], g, y') && g[y'].Some? && g[y'].value + 1 == g[y].value;
        LineSteps(y', y);
      }
    }
  }

  /** Withdrawing the right-hand end leaves the left-hand end as the only
      source. */
  lemma RightEndGone()
    ensures RemoveFirst([Cell(0, 0), Cell(0, 4)], Cell(0, 4)) == [Cell(0, 0)]
  {
    var xs := [Cell(0, 0), Cell(0, 4)];
    assert FirstIndex(xs, Cell(0, 4)) == 1;
    assert xs[..1] + xs[2..] == [Cell(0, 0)];
  }

  /** The consistent table of the line with sources at both ends. */
  lemma ConsistentLine(st: State)
    requires Consistent(st) && st.terrain == Line() && st.sources == [Cell(0, 0), Cell(0, 4)]
    ensures IsGrid(Line(), st.field)
    ensures st.field[Cell(0, 0)] == Some(0) && st.field[Cell(0, 1)] == Some(1) && st.field[Cell(0, 2)] == Some(2)
    ensures st.field[Cell(0, 3)] == Some(1) && st.field[Cell(0, 4)] == Some(0)
  {
    assert Elements(st.sources) == BothEnds();
    assert st.field == ShortestHops(Line(), BothEnds());
    LineBothEnds();
  }

  /** The withdrawal on the line, stated on the table alone. */
  lemma HoleAfterWithdrawal(f: Field, g: Field)
    requires IsGrid(Line(), f)
    requires f[Cell(0, 0)] == Some(0) && f[Cell(0, 1)] == Some(1) && f[Cell(0, 2)] == Some(2)
    requires f[Cell(0, 3)] == Some(1) && f[Cell(0, 4)] == Some(0)
    requires IsSpreadOf(Line(), RemoveFieldsOfSource(Line(), f, Cell(0, 4)).g, [Cell(0, 0)], g)
    ensures Cell(0, 3) in g && g[Cell(0, 3)] == None
  {
    WithdrawnLine(f);
    HoleStays(RemoveFieldsOfSource(Line(), f, Cell(0, 4)).g, g);
  }

  /** Withdrawing a source is not repaired, even by `remove_source` as
      evidently intended (`MinLandField.RemoveSource`; the code as it stands
      raises before it spreads at all, see `RemoveSourceAsWritten`). On the
      line with sources at both ends (distances 0 1 2 1 0), removing the
      right-hand end clears the last two cells and then spreads from the
      remaining source only. Spread is seeded from the source list, not
      from the cells next to the cleared ones, and the left-hand source's
      distances are already settled, so the fourth cell stays unknown
      although it is three hops from the remaining source. */
  lemma RemovalLeavesHole(st: State, g: Field)
    requires Consistent(st) && st.terrain == Line() && st.sources == [Cell(0, 0), Cell(0, 4)]
    requires IsSpreadOf(Line(), RemoveFieldsOfSource(Line(), st.field, Cell(0, 4)).g, RemoveFirst(st.sources, Cell(0, 4)), g)
    ensures Cell(0, 3) in g && g[Cell(0, 3)] == None
    ensures Distance(Line(), Elements(RemoveFirst(st.sources, Cell(0, 4))), Cell(0, 3)) == Some(3)
  {
    ConsistentLine(st);
    RightEndGone();
    HoleAfterWithdrawal(st.field, g);
    LineFromLeft();
  }
}

=== FILE: spread.dfy ===
/** `spread`: unit-weight relaxation of the distance table from the field's
    sources, driven by a priority queue of (distance, cell) entries. */
module Propagation {
  import opened Grid
  import opened Paths

  /** A queue entry, the tuple `(distance, loc)` that spread puts. */
  datatype Entry = Entry(d: nat, at: Cell)

  /** Python's tuple order on `(distance, (row, col))`. */
  predicate EntryBefore(a: Entry, b: Entry) {
    a.d < b.d || (a.d == b.d && CellBefore(a.at, b.at))
  }

  /** A source that spread seeds: listed in `sources` and holding a distance. */
  predicate IsSeed(f: Field, sources: seq<Cell>, c: Cell) {
    c in sources && c in f && f[c].Some?
  }

  /** `x` is reached, with distance `v`, by a walk from a seed `s`:
      `v` is `s`'s distance plus the walk's length. */
  ghost predicate SeededWalk(t: Terrain, f: Field, sources: seq<Cell>, x: Cell, v: nat) {
    exists p :: IsWalk(t, p) && IsSeed(f, sources, p[0]) && f[p[0]].value + |p| - 1 == v && p[|p| - 1] == x
  }

  /** A cell spread takes part in: a seed, or a cell it rewrote. */
  ghost predicate Active(f: Field, sources: seq<Cell>, g: Field, c: Cell) {
    IsSeed(f, sources, c) || (c in f && c in g && g[c] != f[c])
  }

  /** Stored distances never grow. */
  ghost predicate NoIncrease(f: Field, g: Field) {
    g.Keys == f.Keys && forall c :: c in f ==> AtMost(g[c], f[c])
  }

  /** Only LAND cells are written. */
  ghost predicate WritesOnlyLand(t: Terrain, f: Field, g: Field) {
    forall c :: c in f && c in g && g[c] != f[c] ==> t.isLand(c)
  }

  /** Every written distance is the length of a walk from a seed. */
  ghost predicate WritesAreWalks(t: Terrain, f: Field, sources: seq<Cell>, g: Field) {
    forall c :: c in f && c in g && g[c] != f[c] ==> g[c].Some? && SeededWalk(t, f, sources, c, g[c].value)
  }

  /** Every written distance is one more than the final distance of an active
      cell it was stepped to from. */
  ghost predicate WritesHavePredecessor(t: Terrain, f: Field, sources: seq<Cell>, g: Field) {
    forall c :: c in f && c in g && g[c] != f[c] ==>
      g[c].Some? &&
      exists y :: Step(t, y, c) && y in g && Active(f, sources, g, y) && g[y].Some? && g[y].value + 1 == g[c].value
  }

  /** When spread is done, every active cell with a distance is relaxed. */
  ghost predicate ActiveRelaxed(t: Terrain, f: Field, sources: seq<Cell>, g: Field) {
    forall c :: c in g && Active(f, sources, g, c) && g[c].Some? ==> Relaxed(t, g, c)
  }

  /** Everything `spread` guarantees about its result `g` from the table `f`. */
  ghost predicate IsSpreadOf(t: Terrain, f: Field, sources: seq<Cell>, g: Field) {
    && NoIncrease(f, g)
    && WritesOnlyLand(t, f, g)
    && WritesAreWalks(t, f, sources, g)
    && WritesHavePredecessor(t, f, sources, g)
    && ActiveRelaxed(t, f, sources, g)
  }

  /** The index of the entry `PriorityQueue.get` removes: a least one. */
  method MinIndex(q: seq<Entry>) returns (i: nat)
    requires |q| > 0
    ensures i < |q|
    ensures forall k :: 0 <= k < |q| ==> EntryBefore(q[i], q[k])
  {
    i := 0;
    var j := 1;
    while j < |q|
      invariant 1 <= j <= |q| && i < j
      invariant forall k :: 0 <= k < j ==> EntryBefore(q[i], q[k])
    {
      if !EntryBefore(q[i], q[j]) {
        i := j;
      }
      j := j + 1;
    }
  }

  /** The initial queue: one entry `(distance, s)` for every listed source
      that holds a distance, in list order. */
  method Seeds(f: Field, sources: seq<Cell>) returns (q: seq<Entry>)
    requires forall k :: 0 <= k < |sources| ==> sources[k] in f
    ensures forall e :: e in q <==> IsSeed(f, sources, e.at) && e.d == f[e.at].value
  {
    q := [];
    var i := 0;
    while i < |sources|
      invariant 0 <= i <= |sources|
      invariant forall e :: e in q <==> e.at in sources[..i] && f[e.at].Some? && e.d == f[e.at].value
    {
      var s := sources[i];
      if f[s].Some? {
        q := q + [Entry(f[s].value, s)];
      }
      assert sources[..i + 1] == sources[..i] + [s];
      i := i + 1;
    }
    assert sources[..i] == sources;
  }

  /** The neighbours of a popped cell that spread rewrites to distance `nd`:
      LAND cells holding no distance or one above `nd`. */
  function Improvable(t: Terrain, g: Field, ns: seq<Cell>, nd: nat): (r: seq<Cell>)
    requires forall k :: 0 <= k < |ns| ==> ns[k] in g
    ensures forall y :: y in r <==> y in ns && t.isLand(y) && y in g && !AtMost(g[y], Some(nd))
  {
    if ns == [] then []
    else
      var rest := Improvable(t, g, ns[1..], nd);
      assert forall y :: y in ns <==> y == ns[0] || y in ns[1..];
      if t.isLand(ns[0]) && !AtMost(g[ns[0]], Some(nd)) then [ns[0]] + rest else rest
  }

  /** Write distance `nd` to every cell of `cand` and put `(nd, c)` for each. */
  method WriteAll(g: Field, q: seq<Entry>, cand: seq<Cell>, nd: nat) returns (g': Field, q': seq<Entry>)
    requires forall k :: 0 <= k < |cand| ==> cand[k] in g
    ensures g'.Keys == g.Keys
    ensures forall c :: c in g ==> g'[c] == if c in cand then Some(nd) else g[c]
    ensures |q'| == |q| + |cand|
    ensures forall e :: e in q' <==> e in q || (e.d == nd && e.at in cand)
  {
    g', q' := g, q;
    var j := 0;
    while j < |cand|
      invariant 0 <= j <= |cand|
      invariant g'.Keys == g.Keys
      invariant forall c :: c in g ==> g'[c] == if c in cand[..j] then Some(nd) else g[c]
      invariant |q'| == |q| + j
      invariant forall e :: e in q' <==> e in q || (e.d == nd && e.at in cand[..j])
    {
      g' := g'[cand[j] := Some(nd)];
      q' := q' + [Entry(nd, cand[j])];
      assert cand[..j + 1] == cand[..j] + [cand[j]];
      j := j + 1;
    }
    assert cand[..j] == cand;
  }

  /** Spread's loop invariant, part one: the table only shrinks, and `w` is
      exactly the set of rewritten cells. */
  ghost predicate InvFrame(t: Terrain, f: Field, g: Field, w: set<Cell>) {
    && WellFormed(t) && IsGrid(t, f) && g.Keys == f.Keys
    && w <= f.Keys
    && (forall c :: c in f ==> (c in w <==> g[c] != f[c]))
    && (forall c :: c in f ==> AtMost(g[c], f[c]))
  }

  /** Part two: rewritten cells are LAND, hold at most one more than the last
      popped distance `lo`, and have a seeded walk and a predecessor. */
  ghost predicate InvWritten(t: Terrain, f: Field, sources: seq<Cell>, g: Field, w: set<Cell>, lo: nat) {
    forall c :: c in w ==>
      && c in g && g[c].Some? && g[c].value <= lo + 1 && t.isLand(c)
      && SeededWalk(t, f, sources, c, g[c].value)
      && exists y :: Step(t, y, c) && y in g && Active(f, sources, g, y) && g[y].Some? && g[y].value + 1 == g[c].value
  }

  /** Part three: queued entries are at active cells, not below `lo`, not
      below the cell's current distance, and reached by a seeded walk. */
  ghost predicate InvQueue(t: Terrain, f: Field, sources: seq<Cell>, g: Field, q: seq<Entry>, lo: nat) {
    forall k :: 0 <= k < |q| ==>
      && q[k].at in f && q[k].at in g && Active(f, sources, g, q[k].at) && lo <= q[k].d
      && g[q[k].at].Some? && g[q[k].at].value <= q[k].d
      && SeededWalk(t, f, sources, q[k].at, q[k].d)
  }

  /** Part four: an active cell is either still queued at its distance or
      already relaxed. */
  ghost predicate InvPending(t: Terrain, f: Field, sources: seq<Cell>, g: Field, q: seq<Entry>) {
    forall c :: c in g && Active(f, sources, g, c) && g[c].Some? ==> Entry(g[c].value, c) in q || Relaxed(t, g, c)
  }

  /** The loop invariant of spread, over the current table `g`, queue `q`,
      the set `w` of rewritten cells and the last popped distance `lo`. */
  ghost predicate SpreadInv(t: Terrain, f: Field, sources: seq<Cell>, g: Field, q: seq<Entry>, w: set<Cell>, lo: nat) {
    && InvFrame(t, f, g, w)
    && InvWritten(t, f, sources, g, w, lo)
    && InvQueue(t, f, sources, g, q, lo)
    && InvPending(t, f, sources, g, q)
  }

  /** One pop of spread's loop: `q[i]` is a least entry, `cand` the cells it
      improves, and `g2`, `q2` the table and queue after writing them. */
  ghost predicate IsPop(t: Terrain, g: Field, q: seq<Entry>, i: nat, cand: seq<Cell>, g2: Field, q2: seq<Entry>) {
    && i < |q| && q[i].at in g
    && (forall k :: 0 <= k < |q| ==> EntryBefore(q[i], q[k]))
    && (forall y :: y in cand <==> y in t.neighbours(q[i].at) && t.isLand(y) && y in g && !AtMost(g[y], Some(q[i].d + 1)))
    && g2.Keys == g.Keys
    && (forall c :: c in g ==> g2[c] == if c in cand then Some(q[i].d + 1) else g[c])
    && (forall e :: e in q2 <==> e in q[..i] + q[i + 1..] || (e.d == q[i].d + 1 && e.at in cand))
  }

  lemma SeededWalkExtend(t: Terrain, f: Field, sources: seq<Cell>, x: Cell, v: nat, y: Cell)
    requires SeededWalk(t, f, sources, x, v) && Step(t, x, y)
    ensures SeededWalk(t, f, sources, y, v + 1)
  {
    var p :| IsWalk(t, p) && IsSeed(f, sources, p[0]) && f[p[0]].value + |p| - 1 == v && p[|p| - 1] == x;
    WalkExtend(t, p, y);
    var p' := p + [y];
    assert p'[0] == p[0] && p'[|p'| - 1] == y;
  }

  /** A relaxed cell stays relaxed while its own distance is kept and the
      others only shrink. */
  lemma RelaxedKept(t: Terrain, g: Field, g': Field, c: Cell)
    requires Relaxed(t, g, c) && g'.Keys == g.Keys && c in g && g'[c] == g[c]
    requires forall y :: y in g ==> AtMost(g'[y], g[y])
    ensures Relaxed(t, g', c)
  {
  }

  /** Removing entry `i` keeps every other entry. */
  lemma RemoveAtKeeps(q: seq<Entry>, i: nat, x: Entry)
    requires i < |q| && x in q && x != q[i]
    ensures x in q[..i] + q[i + 1..]
  {
    var k :| 0 <= k < |q| && q[k] == x;
    if k < i { assert (q[..i] + q[i + 1..])[k] == x; } else { assert (q[..i] + q[i + 1..])[k - 1] == x; }
  }

  /** What is left after removing entry `i` was in the queue. */
  lemma RemovedFrom(q: seq<Entry>, i: nat, x: Entry)
    requires i < |q| && x in q[..i] + q[i + 1..]
    ensures x in q
  {
    if x in q[..i] {
      var k :| 0 <= k < i && q[..i][k] == x;
      assert q[k] == x;
    } else {
      var k :| 0 <= k < |q[i + 1..]| && q[i + 1..][k] == x;
      assert q[i + 1 + k] == x;
    }
  }

  /** The two facts about a pop that drive spread's invariant: the popped
      entry is not stale when it rewrites anything, and the popped cell is
      not among the cells it rewrites. */
  lemma PopFacts(t: Terrain, f: Field, sources: seq<Cell>, g: Field, q: seq<Entry>, w: set<Cell>, lo: nat,
                 i: nat, cand: seq<Cell>, g2: Field, q2: seq<Entry>)
    requires SpreadInv(t, f, sources, g, q, w, lo)
    requires IsPop(t, g, q, i, cand, g2, q2)
    ensures q[i].at !in cand
    ensures cand != [] ==> g[q[i].at] == Some(q[i].d)
    ensures forall y :: y in cand ==> y in f && y !in w
  {
    var e := q[i];
    var loc := e.at;
    if cand != [] && g[loc] != Some(e.d) {
      var v := g[loc].value;
      assert Entry(v, loc) !in q;
      assert Step(t, loc, cand[0]);
      assert false;
    }
  }

  lemma StepKeepsFrame(t: Terrain, f: Field, sources: seq<Cell>, g: Field, q: seq<Entry>, w: set<Cell>, lo: nat,
                       i: nat, cand: seq<Cell>, g2: Field, q2: seq<Entry>)
    requires InvFrame(t, f, g, w)
    requires IsPop(t, g, q, i, cand, g2, q2)
    requires forall y :: y in cand ==> y in f && y !in w
    ensures InvFrame(t, f, g2, w + Elements(cand))
    ensures forall c :: c in f ==> AtMost(g2[c], g[c])
  {
  }

  lemma StepKeepsWritten(t: Terrain, f: Field, sources: seq<Cell>, g: Field, q: seq<Entry>, w: set<Cell>, lo: nat,
                         i: nat, cand: seq<Cell>, g2: Field, q2: seq<Entry>)
    requires SpreadInv(t, f, sources, g, q, w, lo)
    requires IsPop(t, g, q, i, cand, g2, q2)
    requires q[i].at !in cand && (cand != [] ==> g[q[i].at] == Some(q[i].d))
    requires InvFrame(t, f, g2, w + Elements(cand))
    ensures InvWritten(t, f, sources, g2, w + Elements(cand), q[i].d)
  {
    var loc, d := q[i].at, q[i].d;
    assert lo <= d;
    forall c | c in w + Elements(cand)
      ensures && c in g2 && g2[c].Some? && g2[c].value <= d + 1 && t.isLand(c)
              && SeededWalk(t, f, sources, c, g2[c].value)
              && exists y :: Step(t, y, c) && y in g2 && Active(f, sources, g2, y) && g2[y].Some? && g2[y].value + 1 == g2[c].value
    {
      if c in cand {
        SeededWalkExtend(t, f, sources, loc, d, c);
        assert Step(t, loc, c) && Active(f, sources, g2, loc) && g2[loc] == Some(d);
      } else {
        var y :| Step(t, y, c) && y in g && Active(f, sources, g, y) && g[y].Some? && g[y].value + 1 == g[c].value;
        assert y !in cand;
        assert Active(f, sources, g2, y);
      }
    }
  }

  lemma StepKeepsQueue(t: Terrain, f: Field, sources: seq<Cell>, g: Field, q: seq<Entry>, w: set<Cell>, lo: nat,
                       i: nat, cand: seq<Cell>, g2: Field, q2: seq<Entry>)
    requires InvFrame(t, f, g, w) && InvQueue(t, f, sources, g, q, lo)
    requires IsPop(t, g, q, i, cand, g2, q2)
    requires forall y :: y in cand ==> y in f && y !in w
    requires InvFrame(t, f, g2, w + Elements(cand))
    requires forall c :: c in f ==> AtMost(g2[c], g[c])
    ensures InvQueue(t, f, sources, g2, q2, q[i].d)
  {
    var loc, d := q[i].at, q[i].d;
    forall k | 0 <= k < |q2|
      ensures && q2[k].at in f && q2[k].at in g2 && Active(f, sources, g2, q2[k].at) && d <= q2[k].d
              && g2[q2[k].at].Some? && g2[q2[k].at].value <= q2[k].d
              && SeededWalk(t, f, sources, q2[k].at, q2[k].d)
    {
      QueueEntry(t, f, sources, g, q, w, lo, i, cand, g2, q2, q2[k]);
    }
  }

  /** Each entry of the new queue is an old one or one for a rewritten cell. */
  lemma QueueEntry(t: Terrain, f: Field, sources: seq<Cell>, g: Field, q: seq<Entry>, w: set<Cell>, lo: nat,
                   i: nat, cand: seq<Cell>, g2: Field, q2: seq<Entry>, x: Entry)
    requires InvFrame(t, f, g, w) && InvQueue(t, f, sources, g, q, lo)
    requires IsPop(t, g, q, i, cand, g2, q2) && x in q2
    requires InvFrame(t, f, g2, w + Elements(cand))
    requires forall c :: c in f ==> AtMost(g2[c], g[c])
    ensures && x.at in f && x.at in g2 && Active(f, sources, g2, x.at) && q[i].d <= x.d
            && g2[x.at].Some? && g2[x.at].value <= x.d
            && SeededWalk(t, f, sources, x.at, x.d)
  {
    if x in q[..i] + q[i + 1..] {
      RemovedFrom(q, i, x);
      var m :| 0 <= m < |q| && q[m] == x;
      QueueOldEntry(t, f, sources, g, q, w, lo, i, cand, g2, m);
    } else {
      QueueNewEntry(t, f, sources, g, q, w, lo, i, cand, g2, x.at);
    }
  }

  /** An entry that stays queued keeps its part of the invariant. */
  lemma QueueOldEntry(t: Terrain, f: Field, sources: seq<Cell>, g: Field, q: seq<Entry>, w: set<Cell>, lo: nat,
                      i: nat, cand: seq<Cell>, g2: Field, m: nat)
    requires InvFrame(t, f, g, w) && InvQueue(t, f, sources, g, q, lo)
    requires i < |q| && m < |q| && EntryBefore(q[i], q[m])
    requires InvFrame(t, f, g2, w + Elements(cand))
    requires forall c :: c in f ==> AtMost(g2[c], g[c])
    ensures var x := q[m];
            && x.at in f && x.at in g2 && Active(f, sources, g2, x.at) && q[i].d <= x.d
            && g2[x.at].Some? && g2[x.at].value <= x.d
            && SeededWalk(t, f, sources, x.at, x.d)
  {
  }

  /** An entry queued for a rewritten cell satisfies the invariant. */
  lemma QueueNewEntry(t: Terrain, f: Field, sources: seq<Cell>, g: Field, q: seq<Entry>, w: set<Cell>, lo: nat,
                      i: nat, cand: seq<Cell>, g2: Field, c: Cell)
    requires InvQueue(t, f, sources, g, q, lo) && i < |q|
    requires c in cand && Step(t, q[i].at, c)
    requires InvFrame(t, f, g2, w + Elements(cand))
    requires c in g2 && g2[c] == Some(q[i].d + 1)
    ensures c in f && Active(f, sources, g2, c) && SeededWalk(t, f, sources, c, q[i].d + 1)
  {
    SeededWalkExtend(t, f, sources, q[i].at, q[i].d, c);
  }

  lemma StepKeepsPending(t: Terrain, f: Field, sources: seq<Cell>, g: Field, q: seq<Entry>, w: set<Cell>, lo: nat,
                         i: nat, cand: seq<Cell>, g2: Field, q2: seq<Entry>)
    requires InvFrame(t, f, g, w) && InvQueue(t, f, sources, g, q, lo) && InvPending(t, f, sources, g, q)
    requires IsPop(t, g, q, i, cand, g2, q2)
    requires q[i].at !in cand
    requires forall y :: y in cand ==> y in f && y !in w
    requires InvFrame(t, f, g2, w + Elements(cand))
    requires forall c :: c in f ==> AtMost(g2[c], g[c])
    ensures InvPending(t, f, sources, g2, q2)
  {
    var loc, d := q[i].at, q[i].d;
    forall c | c in g2 && Active(f, sources, g2, c) && g2[c].Some?
      ensures Entry(g2[c].value, c) in q2 || Relaxed(t, g2, c)
    {
      if c in cand {
        assert Entry(d + 1, c) in q2;
      } else {
        assert Active(f, sources, g, c);
        if c == loc && g[loc] == Some(d) {
          forall y | Step(t, loc, y)
            ensures y in g2 && g2[y].Some? && g2[y].value <= d + 1
          {
            assert InBounds(t, loc);
          }
        } else if Entry(g[c].value, c) in q {
          RemoveAtKeeps(q, i, Entry(g[c].value, c));
        } else {
          RelaxedKept(t, g, g2, c);
        }
      }
    }
  }

  /** Writing cells not written before shrinks what is left to write. */
  lemma WrittenProgress(keys: set<Cell>, w: set<Cell>, cand: seq<Cell>)
    requires w <= keys && forall y :: y in cand ==> y in keys && y !in w
    ensures w + Elements(cand) <= keys
    ensures cand == [] || keys - (w + Elements(cand)) < keys - w
  {
    if cand != [] {
      FewerLeft(keys, w, w + Elements(cand), cand[0]);
    }
  }

  /** One iteration of spread's loop preserves its invariant. */
  lemma StepKeepsInv(t: Terrain, f: Field, sources: seq<Cell>, g: Field, q: seq<Entry>, w: set<Cell>, lo: nat,
                     i: nat, cand: seq<Cell>, g2: Field, q2: seq<Entry>)
    requires SpreadInv(t, f, sources, g, q, w, lo)
    requires IsPop(t, g, q, i, cand, g2, q2)
    ensures SpreadInv(t, f, sources, g2, q2, w + Elements(cand), q[i].d)
    ensures w + Elements(cand) <= f.Keys
    ensures cand == [] || f.Keys - (w + Elements(cand)) < f.Keys - w
  {
    PopFacts(t, f, sources, g, q, w, lo, i, cand, g2, q2);
    WrittenProgress(f.Keys, w, cand);
    StepKeepsFrame(t, f, sources, g, q, w, lo, i, cand, g2, q2);
    StepKeepsWritten(t, f, sources, g, q, w, lo, i, cand, g2, q2);
    StepKeepsQueue(t, f, sources, g, q, w, lo, i, cand, g2, q2);
    StepKeepsPending(t, f, sources, g, q, w, lo, i, cand, g2, q2);
  }

  /** The seeded queue and the untouched table satisfy spread's invariant. */
  lemma InvAtStart(t: Terrain, f: Field, sources: seq<Cell>, q: seq<Entry>)
    requires WellFormed(t) && IsGrid(t, f)
    requires forall e :: e in q <==> IsSeed(f, sources, e.at) && e.d == f[e.at].value
    ensures SpreadInv(t, f, sources, f, q, {}, 0)
  {
    forall k | 0 <= k < |q|
      ensures SeededWalk(t, f, sources, q[k].at, q[k].d)
    {
      assert q[k] in q;
      assert IsWalk(t, [q[k].at]);
    }
    forall c | c in f && Active(f, sources, f, c) && f[c].Some?
      ensures Entry(f[c].value, c) in q
    {
    }
  }

  /** With the queue empty, the invariant yields everything spread promises. */
  lemma InvAtEnd(t: Terrain, f: Field, sources: seq<Cell>, g: Field, w: set<Cell>, lo: nat)
    requires SpreadInv(t, f, sources, g, [], w, lo)
    ensures IsSpreadOf(t, f, sources, g)
  {
    forall c | c in f && c in g && g[c] != f[c]
      ensures g[c].Some? && exists y :: Step(t, y, c) && y in g && Active(f, sources, g, y) && g[y].Some? && g[y].value + 1 == g[c].value
    {
      assert c in w;
    }
  }

  /** The work of one iteration of spread's loop (the body of
      `while not q.empty()`): pop a least entry `(d, loc)` and rewrite the
      neighbours of `loc` that `d + 1` improves. */
  method Relax(t: Terrain, g: Field, q: seq<Entry>) returns (i: nat, cand: seq<Cell>, g2: Field, q2: seq<Entry>)
    requires q != [] && WellFormed(t) && IsGrid(t, g)
    requires forall k :: 0 <= k < |q| ==> InBounds(t, q[k].at)
    ensures IsPop(t, g, q, i, cand, g2, q2)
    ensures |q2| == |q| - 1 + |cand|
  {
    i := MinIndex(q);
    var e := q[i];
    assert InBounds(t, e.at);
    cand := Improvable(t, g, t.neighbours(e.at), e.d + 1);
    g2, q2 := WriteAll(g, q[..i] + q[i + 1..], cand, e.d + 1);
  }

  /** One iteration of spread's loop keeps its invariant and makes progress:
      it writes a cell never written before, or shortens the queue. */
  method Pop(t: Terrain, ghost f: Field, ghost sources: seq<Cell>, g: Field, q: seq<Entry>, ghost w: set<Cell>, ghost lo: nat)
    returns (g2: Field, q2: seq<Entry>, ghost w2: set<Cell>, ghost lo2: nat)
    requires q != [] && SpreadInv(t, f, sources, g, q, w, lo)
    ensures SpreadInv(t, f, sources, g2, q2, w2, lo2)
    ensures w2 <= f.Keys
    ensures f.Keys - w2 < f.Keys - w || (w2 == w && |q2| < |q|)
  {
    var i, cand;
    i, cand, g2, q2 := Relax(t, g, q);
    StepKeepsInv(t, f, sources, g, q, w, lo, i, cand, g2, q2);
    w2 := w + Elements(cand);
    lo2 := q[i].d;
  }

  /** `spread`: starting from every listed source that holds a distance,
      repeatedly take a least entry `(d, loc)` from the queue and give each
      LAND neighbour of `loc` holding no distance or more than `d + 1` the
      distance `d + 1`, queueing it in turn. */
  method Spread(t: Terrain, f: Field, sources: seq<Cell>) returns (g: Field)
    requires WellFormed(t) && IsGrid(t, f)
    requires forall k :: 0 <= k < |sources| ==> InBounds(t, sources[k])
    ensures NoIncrease(f, g)
    ensures WritesOnlyLand(t, f, g)
    ensures WritesAreWalks(t, f, sources, g)
    ensures WritesHavePredecessor(t, f, sources, g)
    ensures ActiveRelaxed(t, f, sources, g)
  {
    var q := Seeds(f, sources);
    g := f;
    ghost var w: set<Cell> := {};
    ghost var lo: nat := 0;
    InvAtStart(t, f, sources, q);
    while q != []
      invariant SpreadInv(t, f, sources, g, q, w, lo)
      invariant w <= f.Keys
      decreases f.Keys - w, |q|
    {
      g, q, w, lo := Pop(t, f, sources, g, q, w, lo);
    }
    InvAtEnd(t, f, sources, g, w, lo);
  }
  /** A known cell of spread's result is relaxed: active cells by spread's
      own guarantee, the others because they were relaxed to begin with. */
  lemma SpreadCellRelaxed(t: Terrain, f: Field, sources: seq<Cell>, g: Field, c: Cell)
    requires NoIncrease(f, g) && ActiveRelaxed(t, f, sources, g)
    requires c in f && f[c].Some? && c !in sources ==> Relaxed(t, f, c)
    requires c in g && g[c].Some?
    ensures Relaxed(t, g, c)
  {
    if !Active(f, sources, g, c) {
      RelaxedKept(t, f, g, c);
    }
  }

  /** A known cell of spread's result is reached by a walk of that length
      when every source started at 0 and every old distance was so reached. */
  lemma SpreadCellReached(t: Terrain, f: Field, sources: seq<Cell>, g: Field, c: Cell)
    requires NoIncrease(f, g) && WritesAreWalks(t, f, sources, g)
    requires forall s :: s in sources ==> s in f && f[s] == Some(0)
    requires c in f && f[c].Some? ==> ReachesIn(t, Elements(sources), c, f[c].value)
    requires c in g && g[c].Some?
    ensures ReachesIn(t, Elements(sources), c, g[c].value)
  {
    if g[c] != f[c] {
      var v := g[c].value;
      var p :| IsWalk(t, p) && IsSeed(f, sources, p[0]) && f[p[0]].value + |p| - 1 == v && p[|p| - 1] == c;
      assert p[0] in Elements(sources) && |p| == v + 1;
    }
  }

  /** Spread computes the reference distances whenever its starting table is
      consistent: every source at 0, every known distance realised by a walk
      from a source, and every known cell that is not a source already
      relaxed. Both `recalculate` (from the blank table) and `add_source`
      (from a finished table) start from such a table. */
  lemma SpreadReachesShortestHops(t: Terrain, f: Field, sources: seq<Cell>, g: Field)
    requires WellFormed(t) && IsGrid(t, f)
    requires forall s :: s in sources ==> s in f && f[s] == Some(0)
    requires forall c :: c in f && f[c].Some? ==> ReachesIn(t, Elements(sources), c, f[c].value)
    requires forall c :: c in f && f[c].Some? && c !in sources ==> Relaxed(t, f, c)
    requires IsSpreadOf(t, f, sources, g)
    ensures g == ShortestHops(t, Elements(sources))
  {
    var S := Elements(sources);
    forall c | c in g && g[c].Some?
      ensures Relaxed(t, g, c) && ReachesIn(t, S, c, g[c].value)
    {
      SpreadCellRelaxed(t, f, sources, g, c);
      SpreadCellReached(t, f, sources, g, c);
    }
    forall s | s in S
      ensures s in g && g[s] == Some(0)
    {
      assert AtMost(g[s], f[s]);
    }
    assert IsDistanceTable(t, S, g);
    DistanceTableUnique(t, S, g);
  }
  /** A cell active in one spread stays active in another that holds at
      most its value there. */
  lemma ActiveKept(f: Field, sources: seq<Cell>, g1: Field, g2: Field, y: Cell)
    requires NoIncrease(f, g1) && NoIncrease(f, g2)
    requires y in g1 && Active(f, sources, g1, y) && g1[y].Some?
    requires y in g2 && AtMost(g2[y], g1[y])
    ensures Active(f, sources, g2, y)
  {
  }

  /** Whatever `g1` satisfying the spread guarantees holds at `c`, every
      other such table holds at most that: by induction on the value, along
      the predecessor `g1` names for a written cell. */
  lemma {:induction false} SpreadBounded(t: Terrain, f: Field, sources: seq<Cell>, g1: Field, g2: Field, c: Cell, v: nat)
    requires NoIncrease(f, g1) && WritesHavePredecessor(t, f, sources, g1)
    requires NoIncrease(f, g2) && ActiveRelaxed(t, f, sources, g2)
    requires c in g1 && g1[c] == Some(v)
    ensures c in g2 && AtMost(g2[c], Some(v))
    decreases v
  {
    if g1[c] != f[c] {
      var y :| Step(t, y, c) && y in g1 && Active(f, sources, g1, y) && g1[y].Some? && g1[y].value + 1 == v;
      var u := g1[y].value;
      assert g1[y] == Some(u) && u < v;
      SpreadBounded(t, f, sources, g1, g2, y, u);
      ActiveKept(f, sources, g1, g2, y);
      assert Relaxed(t, g2, y);
    }
  }

  /** Two tables with the spread guarantees agree at each cell. */
  lemma SpreadAgreeAt(t: Terrain, f: Field, sources: seq<Cell>, g1: Field, g2: Field, c: Cell)
    requires NoIncrease(f, g1) && WritesHavePredecessor(t, f, sources, g1) && ActiveRelaxed(t, f, sources, g1)
    requires NoIncrease(f, g2) && WritesHavePredecessor(t, f, sources, g2) && ActiveRelaxed(t, f, sources, g2)
    requires c in g1
    ensures c in g2 && g1[c] == g2[c]
  {
    if g1[c].Some? {
      SpreadBounded(t, f, sources, g1, g2, c, g1[c].value);
    }
    if g2[c].Some? {
      SpreadBounded(t, f, sources, g2, g1, c, g2[c].value);
    }
  }

  /** The spread guarantees fix the table: two results of spreading the same
      table from the same sources are equal. */
  lemma SpreadUnique(t: Terrain, f: Field, sources: seq<Cell>, g1: Field, g2: Field)
    requires IsSpreadOf(t, f, sources, g1) && IsSpreadOf(t, f, sources, g2)
    ensures g1 == g2
  {
    forall c | c in g1
      ensures g1[c] == g2[c]
    {
      SpreadAgreeAt(t, f, sources, g1, g2, c);
    }
  }

  /** With no sources there is nothing to spread from: the table is left
      as it is. */
  lemma SpreadFromNoSources(t: Terrain, f: Field, g: Field)
    requires IsSpreadOf(t, f, [], g)
    ensures g == f
  {
    assert forall c :: c in f ==> g[c] == f[c];
  }
}
